=== FILE: README.md ===
# Solar fleet analyzer — a Dafny model of the per-plant pipeline

The Solar Fleet Analytics Engine is a single script. It reads a monthly
production spreadsheet for each configured photovoltaic plant and fetches the
daily solar irradiance for the plant's location. From the two it computes the
plant's performance ratio (PR), the actual energy over the expected energy in
percent. It then keeps the plants whose PR is at most 100 and labels each one
Excellent, Standard or Review Needed.

This project models that analysis as a pure pipeline over sequences of dated
values:

- `Dates`: calendar days, and the `YYYY-MM` / `YYYY-MM-DD` texts the script
  compares and sends.
- `Columns`: lower-casing of header text and the keyword column detector
  (`gerçek`, `üretim`, `active`, `production`, `yield`).
- `Series`: dated values and the sums over days the proofs use.
- `Ingest`: from a sheet to the daily yields of the target month. This covers
  dropping unparsable dates, summing each day, the month filter, and the
  "looks like MWh, multiply by 1000" heuristic.
- `Physics`: MJ/m² to kWh/m², the inner join on the day, expected energy,
  PR, the quality gate and the status labels.
- `Fleet`: one plant's analysis with every way it can fail, and the fleet
  loop that collects the kept analyses in configuration order.
- `Wrappers`: `Option` and `Result`.

Outside effects are parameters of the model:

- The file system is a map from file name to a readable sheet or an
  unreadable file.
- The irradiance service is a pure function from request to an optional
  daily series.
- Exceptions the script catches become `PlantError` values.

The arithmetic is exact (`real`).

One quirk of the column detector is kept as written. The detector lower-cases
headers the way Python's `str.lower` does. That maps the capital dotted `İ`
to `i` plus a combining dot, so an upper-case Turkish header `ÜRETİM` does not
contain `üretim` and is not detected (`Columns.UpperCaseTurkishHeaderMissed`).

## Model

| member | source | states |
|---|---|---|
| Columns.DetectColumn | solar_analytics.py:57 | The detected column is a header that contains a keyword once lower-cased; no earlier header does; there is no column exactly when no header does. |
| Columns.FirstProductionFrom | solar_analytics.py:57 | Scanning from a position finds the first production header at or after it, or none exists from there on. |
| Columns.ContainsMeansOccurs | solar_analytics.py:57 | The recursive substring test holds exactly when the keyword occurs at some position of the header. |
| Columns.LowerAppend | solar_analytics.py:57 | Lower-casing works character by character: the lower-cased text of a concatenation is the concatenation of the lower-cased parts. |
| Columns.LowerAscii | solar_analytics.py:57 | On ASCII text, lower-casing keeps the length, maps A–Z to a–z and leaves every other character unchanged. |
| Columns.LowerOfLowerCase | solar_analytics.py:57 | Text of lower-case ASCII letters and Latin-1 letters from ß to ÿ is left unchanged by lower-casing. |
| Columns.KeywordsAreLower | solar_analytics.py:57 | The five keywords are their own lower-cased text. |
| Columns.KeywordMakesProductionHeader | solar_analytics.py:57 | Any header with a keyword somewhere in it, whatever text surrounds it, is a production header. |
| Columns.UpperCaseEnglishHeaderDetected | solar_analytics.py:57 | The all-caps header `PRODUCTION` is recognised. |
| Columns.UpperCaseTurkishCedillaDetected | solar_analytics.py:57 | The all-caps header `GERÇEK` is recognised, because `Ç` lowers to `ç`. |
| Columns.YieldHeaderIsProduction | solar_analytics.py:57 | A header `Yield` is recognised through the keyword `yield`. |
| Columns.UpperCaseTurkishHeaderMissed | solar_analytics.py:57 | The header `ÜRETİM` is not recognised, because lower-casing turns `İ` into two characters. |
| Columns.FindHeader | solar_analytics.py:58 | The `Tarih` column is the first header equal to the name; there is none exactly when the name is absent. |
| Ingest.ParseRows | solar_analytics.py:58-62 | At most one record per row. A record is in the result exactly when it is the (date, yield) of some row whose date parses; a blank yield counts 0. |
| Ingest.ParseRowsSumWhere | solar_analytics.py:58-62 | For any set of days, the parsed records dated in it sum to the yield of all sheet rows dated in it. |
| Ingest.ParseRowsSumOn | solar_analytics.py:58-62 | For every day, the parsed records of that day sum to the yield of all sheet rows dated that day. |
| Ingest.ParseRowsDates | solar_analytics.py:61-62 | The parsed records name exactly the days of the rows whose date parses. |
| Ingest.UnparsedRowIgnored | solar_analytics.py:61-62 | A row whose date does not parse contributes nothing: removing it leaves the records unchanged. |
| Ingest.InsertDates | solar_analytics.py:62 | Adding one value to a day table adds exactly its day to the table's days. |
| Ingest.InsertSorted | solar_analytics.py:62 | Adding one value to a day-sorted table keeps it sorted. |
| Ingest.InsertSums | solar_analytics.py:62 | Adding one value changes only its own day's sum, by that value. |
| Ingest.GroupSumSpec | solar_analytics.py:62 | Grouping gives strictly increasing days, the same set of days, and the same per-day sum as the input rows. |
| Ingest.GroupSumValues | solar_analytics.py:62 | After grouping there is one record per day, and its value is the sum of all input values for that day. |
| Ingest.GroupSumOfSorted | solar_analytics.py:62 | Grouping a table that already has one sorted record per day returns it unchanged. |
| Ingest.GroupSumIdempotent | solar_analytics.py:62 | Grouping twice is grouping once. |
| Ingest.MonthFilter | solar_analytics.py:63 | A record survives exactly when it was present and its date formats to the target month; day order is kept. |
| Ingest.InMonthMeansSameMonth | solar_analytics.py:63 | For four-digit years, a date's `YYYY-MM` text equals the target text exactly when year and month are equal. |
| Ingest.JanuaryBoundaries | solar_analytics.py:63 | With target 2026-01, 2025-12-31 and 2026-02-01 are dropped, while 2026-01-01 and 2026-01-31 are kept. |
| Ingest.LooksLikeMWhMeans | solar_analytics.py:66 | The unit test fires exactly when the set is non-empty and its total is below 100 per record, i.e. its mean is below 100. |
| Ingest.Scale | solar_analytics.py:66 | Scaling multiplies every value and the total by the factor and keeps every date. |
| Ingest.Normalise | solar_analytics.py:66 | Record count and dates are kept; values are multiplied by 1000 when the mean is below 100, otherwise the series is unchanged. |
| Ingest.NormaliseExamples | solar_analytics.py:66 | [5,6,7] becomes [5000,6000,7000]; [5000,6000] and a set with mean exactly 100 are untouched. |
| Ingest.NormaliseSettles | solar_analytics.py:66 | When the mean is at least 0.1, the result no longer triggers the rescale, so normalising twice is normalising once. |
| Ingest.NormaliseTinyMeanRescalesTwice | solar_analytics.py:66 | Below a mean of 0.1 the heuristic fires again on its own output: 0.05 becomes 50, then 50000. |
| Ingest.NormaliseKeepsDates | solar_analytics.py:66 | Normalisation keeps the set of days. |
| Ingest.TotalOfDaySums | solar_analytics.py:62-66 | A one-record-per-day table whose values are per-day sums totals to the sum of the source over its days. |
| Ingest.FilteredDaySums | solar_analytics.py:62-63 | The filtered day table has one record per day, each holding its day's sum, and its days are exactly the input days in the target month. |
| Ingest.Extract | solar_analytics.py:57-66 | Missing production column is an error exactly when no header matches; missing `Tarih` is an error exactly when a header matches but `Tarih` is absent; on success the days are sorted and all in the target month. |
| Ingest.SanitiseSpec | solar_analytics.py:61-66 | The result's days are exactly the parsed days in the target month; each value is one common factor times the day's sum; the factor is 1000 exactly when those sums average below 100, otherwise 1; the result totals the factor times the day sums. |
| Ingest.ExtractSpec | solar_analytics.py:57-66 | With both columns found, ingestion succeeds. Its days are exactly the sheet's parsed days in the target month. Each day holds one common factor times the yield of that day's rows. The factor is 1 or 1000. The result's total is the factor times the unscaled yield of the rows dated in those days, and the factor is 1000 exactly when that unscaled yield averages below 100 per day. |
| Physics.ToKWh | solar_analytics.py:77 | Each converted value times 3.6 is the MJ/m² value, and the dates are kept. |
| Physics.ToKWhTotal | solar_analytics.py:77 | The converted total times 3.6 is the original total. |
| Physics.ToKWhKeepsDates | solar_analytics.py:77 | Conversion keeps the set of days and one-record-per-day. |
| Physics.MatchesOf | solar_analytics.py:80 | Every match of one yield record carries its date and value and the value of an irradiance record with that same date. |
| Physics.Join | solar_analytics.py:80 | Every joined row pairs a yield record and an irradiance record with the same date. |
| Physics.JoinEmptyIffDisjoint | solar_analytics.py:80 | The join is empty exactly when the two series share no day. |
| Physics.MatchesOfEmpty | solar_analytics.py:80 | A yield record has no match exactly when the irradiance series lacks its day. |
| Physics.MatchesOfActual | solar_analytics.py:80-83 | With one irradiance record per day, a yield record contributes its value if its day is covered, else nothing. |
| Physics.MatchesOfIrradiance | solar_analytics.py:80-84 | A yield record's matches carry the total irradiance of its day. |
| Physics.SumsOfConcat | solar_analytics.py:83-84 | Actual and irradiance sums add over concatenation. |
| Physics.JoinActual | solar_analytics.py:80-83 | With one irradiance record per day, the actual total is the yield of the days the irradiance covers. |
| Physics.JoinIrradiance | solar_analytics.py:80-84 | With one yield record per day, the matched irradiance is the irradiance of the days the yields cover. |
| Physics.ExpectedIsLinear | solar_analytics.py:81-84 | The sum of per-day expected energies equals the expected energy of the total matched irradiance. |
| Physics.SumWhereToKWh | solar_analytics.py:77 | Converting then summing over a set of days equals summing then dividing by 3.6. |
| Physics.ExpectedOverJoin | solar_analytics.py:76-84 | The expected total is the model applied to (irradiance of the yield days) / 3.6. |
| Physics.PerformanceRatio | solar_analytics.py:85 | With positive expected energy, PR times expected equals 100 times actual; otherwise PR is 0. |
| Physics.PerformanceRatioIncreasesWithActual | solar_analytics.py:85 | At a fixed positive expected energy, PR strictly increases with actual energy. |
| Physics.PerformanceRatioDecreasesWithExpected | solar_analytics.py:85 | At a fixed positive actual energy, PR strictly decreases as expected energy grows. |
| Physics.GateMeansNoOverproduction | solar_analytics.py:85-88 | With positive expected energy the gate passes exactly when actual does not exceed expected; without it the gate always passes. |
| Physics.GateBoundary | solar_analytics.py:88 | PR 100 passes the gate; anything above, such as 100.0001, does not. |
| Physics.Classify | solar_analytics.py:94 | Exactly one label: Excellent iff PR ≥ 85, Standard iff 70 ≤ PR < 85, Review Needed iff PR < 70. |
| Physics.ClassifyMonotone | solar_analytics.py:94 | A higher PR never receives a worse label. |
| Physics.ClassifyBoundaries | solar_analytics.py:94 | 85 gives Excellent, 84.999 Standard, 70 Standard, 69.999 Review Needed, and 0 reads "Review Needed". |
| Dates.DaysInMonth | solar_analytics.py:69 | Month lengths range over 28–31, and a month has 31 days exactly in Jan, Mar, May, Jul, Aug, Oct, Dec. |
| Dates.PadDigits | solar_analytics.py:63 | Zero-padded text has exactly the requested width and consists of digits. |
| Dates.PadDigitsInjective | solar_analytics.py:63 | Numbers below 10^width with the same padded text are equal. |
| Dates.MonthTextInjective | solar_analytics.py:63 | Two `YYYY-MM` texts are equal exactly when the years and months are. |
| Dates.DateTextInjective | solar_analytics.py:69 | Two `YYYY-MM-DD` texts are equal exactly when the dates are. |
| Fleet.RequestAsWrittenEndNamesNoDay | solar_analytics.py:69 | For a month shorter than 31 days, the request's end date as written names no calendar day. |
| Fleet.February2026RequestAsWritten | solar_analytics.py:69 | For February 2026 the request ends at "2026-02-31", which is not a date. |
| Fleet.RequestsAgreeOn31DayMonths | solar_analytics.py:69 | The corrected request equals the request as written exactly when the target month has 31 days. |
| Fleet.IrradianceRequestSpansMonth | solar_analytics.py:69 | The corrected request runs from the first to the last day of the target month and covers every day in it. |
| Fleet.AnalysePlant | solar_analytics.py:50-98 | A plant fails with "file not found" exactly when its file is absent, and with "unreadable" exactly when the reader fails; a success carries the plant's id and capacity and the label of its PR. |
| Fleet.AnalysePlantSucceeds | solar_analytics.py:53-85 | An analysis succeeds exactly when the sheet is ingested and the irradiance provider answers. |
| Fleet.NoProductionColumnSkipped | solar_analytics.py:57 | A sheet without a production column makes the plant fail, so it is never kept. |
| Fleet.Score | solar_analytics.py:80-94 | The scored line carries the plant's id and capacity, the PR relation to the totals, and the label of its PR. |
| Fleet.ScoreActual | solar_analytics.py:80-83 | The actual total is the yield of the days the irradiance series covers. |
| Fleet.ScoreExpected | solar_analytics.py:76-84 | The expected total is tilt × kWp × loss × (irradiance of the yield days) / 3.6. |
| Fleet.AnalysisTotals | solar_analytics.py:58-84 | A successful analysis works from strictly day-sorted yields (one per day). Only days present in both series contribute to its actual and expected totals. |
| Fleet.NoOverlapIsReviewNeeded | solar_analytics.py:80-94 | With no day in common, actual, expected and PR are 0; the plant passes the gate and is labelled Review Needed. |
| Fleet.OneDayExample | solar_analytics.py:76-94 | 3000 kWh from a 1000 kWp plant under 10.8 MJ/m² with tilt 1.35 and loss 0.85: expected 3442.5 kWh, Excellent, kept. |
| Fleet.Collect | solar_analytics.py:47-98 | The kept analyses are never more than the outcomes, and every one passes the gate. |
| Fleet.RunFleet | solar_analytics.py:47-98 | The loop appends exactly the successful gate-passing analyses, in order; it returns the fleet summary. |
| Fleet.CollectAppend | solar_analytics.py:49-98 | Collecting two runs of outcomes one after the other gives the two collections one after the other. |
| Fleet.OutcomesAppend | solar_analytics.py:49-98 | Each plant's outcome depends only on that plant: the outcomes of two lists are the two lists of outcomes joined. |
| Fleet.SummaryAppend | solar_analytics.py:49-98 | Plants do not influence each other: the summary of two lists is the two summaries joined. |
| Fleet.CollectMembers | solar_analytics.py:88-95 | A collected analysis is exactly the value of some successful, gate-passing outcome. |
| Fleet.SummaryMembers | solar_analytics.py:49-98 | A summary line is exactly the analysis of some configured plant that succeeded and passed the gate. |
| Fleet.CollectOrder | solar_analytics.py:49-95 | Collected identifiers form a subsequence of the run's identifiers. |
| Fleet.SummaryOrder | solar_analytics.py:49-95 | The summary's plant ids are a subsequence of the configured ids, in configuration order. |
| Fleet.CollectUnique | solar_analytics.py:49-95 | With distinct run identifiers, collected identifiers are distinct. |
| Fleet.SummaryUnique | solar_analytics.py:49-95 | With unique plant ids, each plant appears in the summary at most once. |
| Fleet.EmptyFleetNothingToReport | solar_analytics.py:36-45 | An empty plant list yields an empty summary. |

## Left out

- Reading the spreadsheet (`read_excel` with the header on row 6) is left out: the model takes a sheet as given, a header row plus rows of cells that either parse as a date and/or a number. A reader failure is the `Unreadable` file state.
- Header text is taken as already converted to a string. The spreadsheet reader renames repeated header names (`X`, `X.1`, …), so the header list the model receives never repeats a name. The model's first-match lookup is what the analyzer does.
- Lower-casing covers ASCII, Latin-1 and Latin Extended-A, which include the Turkish letters. Up to U+017F this agrees with Python's `str.lower`. Code points beyond that range are left unchanged. Of those, only the Kelvin sign U+212A could change a keyword match: Python lowers it to `k`, so a header such as "WorKing" would not be the same text after lower-casing in the model.
- The HTTP request, its 20-second timeout, the three-try retry loop and the one-second sleeps are not modelled. The provider is a pure function that answers or fails.
- When all three tries fail, the script either raises on an unbound name or silently reuses the previous plant's response. Only the first outcome, a skipped plant, is modelled; reusing stale data is not intended behaviour.
- The response's JSON shape and a response without `daily` data become the provider's `None`.
- Timestamps are calendar days. Time-of-day parts, which pandas would keep apart when grouping and joining, are not modelled.
- Floating-point arithmetic, NaN beyond "a blank yield counts 0", and the `round` calls that build the summary lines are not modelled. Numbers are exact reals and the summary keeps unrounded values.
- A date is a plain (year, month, day) triple. The parser's range appears only in the validity predicate `Dates.Valid`, and only approximately, as whole years 1677–2262. The real bounds are 1677-09-21 and 2262-04-11. Five-digit years do not fit the four-digit `YYYY-MM` text. The target month is typed as a year and a month number, so a malformed target text is not modelled.
- The console messages, the bar chart and its colours (which use the rounded PR), the Excel report, its file-name collision loop and its styling, and opening the report are output only and are not modelled.
- Ingest.Extract: a yield cell holding text (a "-" placeholder, or a number stored as text) is read like a blank cell, as 0, and the plant is scored. In the analyzer, such a cell leaves the yield column as text: the day grouping's `sum()` (line 62) or the `mean()` (line 66) then raises a type error, and line 98 skips the plant. Whether and where pandas raises depends on how the text cells fall into day groups, so this path is not modelled.
- Fleet.AnalysePlant: its contract does not restate the PR relation. That relation is stated on `Fleet.Score`, and the helper `Fleet.AnalysePlantIsScore` connects the two.
- Fleet.AnalysePlant: it asks the provider for the corrected request (`Fleet.IrradianceRequest`, first to last day of the month), not line 69's request ending on day 31. The two coincide exactly in 31-day months (`Fleet.RequestsAgreeOn31DayMonths`). In a shorter month, a provider that rejects the invalid day-31 date would make the analyzer skip every plant, while the model scores them.
- Ingest.Normalise: the rescale is stated as an implication, not an if-and-only-if. A series of zeros triggers the rescale and comes out equal to itself, so "changed exactly when the mean is below 100" does not hold of it. `Ingest.SanitiseSpec` gives the exact factor.
- Fleet.AnalysisTotals: the totals are stated only for a provider that reports each day once. With a repeated day, the join counts that day's yield once per repetition.
- Fleet.ScoreActual: the actual total is stated only for an irradiance series that reports each day once, for the same reason.

## Findings

| source | as written | input that shows it | evidently intended | confidence | as-written member | corrected member |
|---|---|---|---|---|---|---|
| solar_analytics.py:69 | The irradiance request always ends on day 31 of the target month | Target month 2026-02 gives the end date "2026-02-31", and likewise for April, June, September and November | The request ends on the month's last day | medium, not executed | Fleet.February2026RequestAsWritten | Fleet.IrradianceRequestSpansMonth |

The rest of the model (`Fleet.AnalysePlant`) sends the corrected request, `Fleet.IrradianceRequest`.

=== FILE: Columns.dfy ===
/** Production-column detection (solar_analytics.py line 57) and the lookup
    of the date column `Tarih` (line 58).

    A header is a production header when its lower-cased text contains one
    of five keywords; the analyzer takes the first such header in column
    order and fails (an index error, which skips the plant) when there is
    none. */
module Columns {
  import opened Wrappers

  /** Python's str.lower() on one character, for ASCII, Latin-1 and Latin
      Extended-A letters. U+0130 (capital I with dot above) lowers to two
      characters, 'i' followed by U+0307 (combining dot above). */
  function LowerChar(c: char): (s: string)
    ensures 1 <= |s| <= 2
  {
    var x := c as int;
    if 65 <= x <= 90 then [(x + 32) as char]
    else if 0xC0 <= x <= 0xDE && x != 0xD7 then [(x + 32) as char]
    else if x == 0x130 then ['i', 0x307 as char]
    else if 0x100 <= x <= 0x137 && x % 2 == 0 then [(x + 1) as char]
    else if 0x139 <= x <= 0x148 && x % 2 == 1 then [(x + 1) as char]
    else if 0x14A <= x <= 0x177 && x % 2 == 0 then [(x + 1) as char]
    else if x == 0x178 then [0xFF as char]
    else if 0x179 <= x <= 0x17E && x % 2 == 1 then [(x + 1) as char]
    else [c]
  }

  /** str.lower() on a whole header. */
  function Lower(s: string): (r: string)
    ensures |s| <= |r| <= 2 * |s|
  {
    if s == [] then [] else LowerChar(s[0]) + Lower(s[1..])
  }

  /** Lower-casing works character by character: it distributes over concatenation. */
  lemma {:induction false} LowerAppend(a: string, b: string)
    ensures Lower(a + b) == Lower(a) + Lower(b)
    decreases |a|
  {
    if a == [] {
      assert a + b == b;
    } else {
      assert (a + b)[0] == a[0];
      assert (a + b)[1..] == a[1..] + b;
      LowerAppend(a[1..], b);
      calc {
        Lower(a + b);
        LowerChar(a[0]) + Lower(a[1..] + b);
        LowerChar(a[0]) + (Lower(a[1..]) + Lower(b));
        (LowerChar(a[0]) + Lower(a[1..])) + Lower(b);
      }
    }
  }

  /** On ASCII text, lower-casing keeps the length and maps exactly the
      letters A-Z to a-z, leaving every other character alone. */
  lemma {:induction false} LowerAscii(s: string)
    requires forall i :: 0 <= i < |s| ==> s[i] as int < 128
    ensures |Lower(s)| == |s|
    ensures forall i :: 0 <= i < |s| ==>
      Lower(s)[i] == if 'A' <= s[i] <= 'Z' then (s[i] as int + 32) as char else s[i]
  {
    if s != [] {
      LowerAscii(s[1..]);
      assert Lower(s) == LowerChar(s[0]) + Lower(s[1..]);
      forall i | 1 <= i < |s|
        ensures Lower(s)[i] == if 'A' <= s[i] <= 'Z' then (s[i] as int + 32) as char else s[i]
      {
        assert s[1..][i - 1] == s[i];
      }
    }
  }

  /** Python's `k in s` on strings: `k` occurs as a contiguous piece of `s`. */
  predicate Contains(s: string, k: string)
    decreases |s|
  {
    k <= s || (|s| > 0 && Contains(s[1..], k))
  }

  /** Reference meaning of substring occurrence: some window of `s` equals `k`. */
  ghost predicate OccursAt(s: string, k: string, i: int) {
    0 <= i && i + |k| <= |s| && s[i..i + |k|] == k
  }

  /** The recursive test agrees with the window definition in both directions. */
  lemma {:induction false} ContainsMeansOccurs(s: string, k: string)
    ensures Contains(s, k) <==> exists i :: OccursAt(s, k, i)
    decreases |s|
  {
    if k <= s {
      assert s[0..|k|] == k;
      assert OccursAt(s, k, 0);
    } else if |s| == 0 {
    } else {
      ContainsMeansOccurs(s[1..], k);
      if exists i :: OccursAt(s[1..], k, i) {
        var i :| OccursAt(s[1..], k, i);
        assert s[i + 1..i + 1 + |k|] == s[1..][i..i + |k|];
        assert OccursAt(s, k, i + 1);
      }
      if exists i :: OccursAt(s, k, i) {
        var i :| OccursAt(s, k, i);
        assert i != 0;
        assert s[1..][i - 1..i - 1 + |k|] == s[i..i + |k|] by {
          forall j | i <= j < i + |k| ensures s[1..][j - 1] == s[j] { }
        }
        assert OccursAt(s[1..], k, i - 1);
      }
    }
  }

  /** The keywords the analyzer looks for, in its order. */
  const Keywords: seq<string> := ["gerçek", "üretim", "active", "production", "yield"]

  /** A header that names actual production: its lower-cased text contains a keyword. */
  predicate IsProductionHeader(h: string) {
    exists k :: k in Keywords && Contains(Lower(h), k)
  }

  /** The first production header at or after position `from`. */
  function FirstProductionFrom(headers: seq<string>, from: nat): (r: Option<nat>)
    requires from <= |headers|
    ensures r.Some? ==> from <= r.value < |headers| && IsProductionHeader(headers[r.value])
    ensures r.Some? ==> forall j :: from <= j < r.value ==> !IsProductionHeader(headers[j])
    ensures r.None? <==> forall j :: from <= j < |headers| ==> !IsProductionHeader(headers[j])
    decreases |headers| - from
  {
    if from == |headers| then None
    else if IsProductionHeader(headers[from]) then Some(from)
    else FirstProductionFrom(headers, from + 1)
  }

  /** The production column: the position of the first production header in
      column order, or None when no header qualifies (the case in which the
      analyzer's `[0]` raises and the plant is skipped). */
  function DetectColumn(headers: seq<string>): (r: Option<nat>)
    ensures r.Some? ==> r.value < |headers| && IsProductionHeader(headers[r.value])
    ensures r.Some? ==> forall j :: 0 <= j < r.value ==> !IsProductionHeader(headers[j])
    ensures r.None? <==> forall j :: 0 <= j < |headers| ==> !IsProductionHeader(headers[j])
  {
    FirstProductionFrom(headers, 0)
  }

  /** The name of the date column the analyzer selects. */
  const DateHeader: string := "Tarih"

  /** The position of the first header equal to `name`, or None. */
  function FindHeader(headers: seq<string>, name: string): (r: Option<nat>)
    ensures r.Some? ==> r.value < |headers| && headers[r.value] == name
    ensures r.Some? ==> forall j :: 0 <= j < r.value ==> headers[j] != name
    ensures r.None? <==> name !in headers
  {
    if headers == [] then None
    else if headers[0] == name then Some(0)
    else match FindHeader(headers[1..], name)
      case None => None
      case Some(i) => Some(i + 1)
  }

  /** A piece placed anywhere inside a text is contained in it. */
  lemma ContainsInside(a: string, k: string, b: string)
    ensures Contains(a + k + b, k)
  {
    var s := a + k + b;
    assert s[|a|..|a| + |k|] == k;
    assert OccursAt(s, k, |a|);
    ContainsMeansOccurs(s, k);
  }

  /** Text made of lower-case ASCII letters and of the Latin-1 range from
      ß to ÿ, which lower-casing leaves alone. */
  predicate LowerCaseText(s: string) {
    forall i :: 0 <= i < |s| ==> ('a' <= s[i] <= 'z') || (0xDF <= s[i] as int <= 0xFF)
  }

  /** Lower-case text is a fixed point of lower-casing. */
  lemma {:induction false} LowerOfLowerCase(s: string)
    requires LowerCaseText(s)
    ensures Lower(s) == s
  {
    if s != [] {
      assert LowerCaseText(s[1..]) by {
        forall i | 0 <= i < |s[1..]|
          ensures ('a' <= s[1..][i] <= 'z') || (0xDF <= s[1..][i] as int <= 0xFF)
        {
          assert s[1..][i] == s[i + 1];
        }
      }
      LowerOfLowerCase(s[1..]);
      assert LowerChar(s[0]) == [s[0]];
      assert s == [s[0]] + s[1..];
    }
  }

  /** The keywords are already lower case. */
  lemma KeywordsAreLower()
    ensures forall k :: k in Keywords ==> Lower(k) == k
  {
    forall k | k in Keywords ensures Lower(k) == k {
      assert LowerCaseText(k);
      LowerOfLowerCase(k);
    }
  }

  /** A header with a keyword written in lower case anywhere in it is a
      production header, whatever surrounds the keyword. */
  lemma KeywordMakesProductionHeader(a: string, k: string, b: string)
    requires k in Keywords
    ensures IsProductionHeader(a + k + b)
  {
    KeywordsAreLower();
    LowerAppend(a + k, b);
    LowerAppend(a, k);
    ContainsInside(Lower(a), k, Lower(b));
  }

  /** A keyword whose first character does not occur in `s` is not contained in `s`. */
  lemma {:induction false} MissingFirstCharNotContained(s: string, k: string)
    requires |k| > 0 && k[0] !in s
    ensures !Contains(s, k)
    decreases |s|
  {
    if |s| > 0 {
      assert s[0] != k[0];
      MissingFirstCharNotContained(s[1..], k);
    }
  }

  /** A typical English export header is recognised. */
  lemma YieldHeaderIsProduction()
    ensures IsProductionHeader("Yield")
  {
    assert Lower("Yield") == "yield";
    assert Contains("yield", "yield");
    assert "yield" in Keywords;
  }

  /** A header that lower-cases to a keyword is a production header. */
  lemma LowersToKeyword(h: string, k: string)
    requires k in Keywords && Lower(h) == k
    ensures IsProductionHeader(h)
  {
    KeywordMakesProductionHeader("", k, "");
    assert "" + k + "" == k;
    assert Contains(k, k);
  }

  /** Lower-casing an all-caps ASCII word of up to five letters, one letter
      at a time. */
  lemma LowerShortUpperWord(w: string)
    requires 0 < |w| <= 5 && forall i :: 0 <= i < |w| ==> 'A' <= w[i] <= 'Z'
    ensures |Lower(w)| == |w|
    ensures forall i :: 0 <= i < |w| ==> Lower(w)[i] == (w[i] as int + 32) as char
  {
    LowerAscii(w);
  }

  /** The all-caps English header "PRODUCTION" is recognised. */
  lemma UpperCaseEnglishHeaderDetected(h: string)
    requires h == "PRODUCTION"
    ensures IsProductionHeader(h)
  {
    var front, back := h[..5], h[5..];
    assert h == front + back;
    LowerShortUpperWord(front);
    LowerShortUpperWord(back);
    assert Lower(front) == "produ";
    assert Lower(back) == "ction";
    LowerAppend(front, back);
    LowersToKeyword(h, "production");
  }

  /** The all-caps Turkish header "GERÇEK" is recognised: the capital C with
      cedilla lowers to ç. */
  lemma UpperCaseTurkishCedillaDetected(h: string)
    requires h == "GERÇEK"
    ensures IsProductionHeader(h)
  {
    assert Lower(h[5..]) == "k";
    assert Lower(h[3..]) == "çek";
    assert Lower(h[1..]) == "erçek";
    assert Lower(h) == "gerçek";
    LowersToKeyword(h, "gerçek");
  }

  /** The all-caps Turkish header "ÜRETİM" is not recognised: its dotted
      capital I lowers to "i" plus a combining dot, which breaks the keyword
      "üretim". */
  lemma UpperCaseTurkishHeaderMissed(h: string)
    requires h == "ÜRETİM"
    ensures !IsProductionHeader(h)
  {
    var low := LowerUpperCaseUretim();
    DottedUretimMissesKeywords(low);
  }

  /** "üreti", a combining dot, "m" contains none of the keywords. */
  lemma DottedUretimMissesKeywords(low: string)
    requires low == "üreti" + [0x307 as char] + "m"
    ensures forall k :: k in Keywords ==> !Contains(low, k)
  {
    assert 'g' !in low && 'a' !in low && 'p' !in low && 'y' !in low;
    MissingFirstCharNotContained(low, "gerçek");
    MissingFirstCharNotContained(low, "active");
    MissingFirstCharNotContained(low, "production");
    MissingFirstCharNotContained(low, "yield");
    DottedUretimMissesUretim(low);
  }

  /** The combining dot breaks the keyword "üretim". */
  lemma DottedUretimMissesUretim(low: string)
    requires low == "üreti" + [0x307 as char] + "m"
    ensures !Contains(low, "üretim")
  {
    assert low[5] != "üretim"[5];
    assert !("üretim" <= low);
    assert 'ü' !in low[1..];
    MissingFirstCharNotContained(low[1..], "üretim");
  }

  /** The lower-cased text of "ÜRETİM", one character at a time. */
  lemma LowerUpperCaseUretim() returns (low: string)
    ensures low == Lower("ÜRETİM")
    ensures low == "üreti" + [0x307 as char] + "m"
  {
    var h := "ÜRETİM";
    var front, back := h[..3], h[3..];
    assert h == front + back;
    LowerAppend(front, back);
    LowerUre(front);
    LowerTim(back);
    low := Lower(h);
  }

  /** The first half of the Turkish header lower-cases letter by letter. */
  lemma LowerUre(w: string)
    requires w == "ÜRE"
    ensures Lower(w) == "üre"
  {
    assert Lower(w[2..]) == "e";
    assert Lower(w[1..]) == "re";
  }

  /** The second half: the dotted capital İ becomes i plus a combining dot. */
  lemma LowerTim(w: string)
    requires w == "TİM"
    ensures Lower(w) == "ti" + [0x307 as char] + "m"
  {
    assert Lower(w[2..]) == "m";
    assert Lower(w[1..]) == "i" + [0x307 as char] + "m";
  }
}

=== FILE: Dates.dfy ===
/** Calendar days and the text the analyzer prints for them.

    The analyzer works with pandas timestamps; every comparison it makes
    (grouping, month filter, join) is modelled on the calendar day the
    timestamp falls on. */
module Dates {

  /** A calendar day. */
  datatype Date = Date(year: nat, month: nat, day: nat)

  /** Gregorian leap-year rule. */
  predicate IsLeapYear(year: nat) {
    year % 4 == 0 && (year % 100 != 0 || year % 400 == 0)
  }

  /** Number of days in a month of the Gregorian calendar. */
  function DaysInMonth(year: nat, month: nat): (n: nat)
    requires 1 <= month <= 12
    ensures 28 <= n <= 31
    ensures n == 31 <==> month in {1, 3, 5, 7, 8, 10, 12}
  {
    if month == 2 then (if IsLeapYear(year) then 29 else 28)
    else if month == 4 || month == 6 || month == 9 || month == 11 then 30
    else 31
  }

  /** A real calendar day inside, approximately, the span a pandas timestamp
      can hold: whole years 1677 to 2262 (the exact bounds are 1677-09-21 and
      2262-04-11). Only such days come out of the date parser. */
  predicate Valid(d: Date) {
    1677 <= d.year <= 2262 && 1 <= d.month <= 12 && 1 <= d.day <= DaysInMonth(d.year, d.month)
  }

  /** Chronological order of calendar days. */
  predicate Before(a: Date, b: Date) {
    || a.year < b.year
    || (a.year == b.year && a.month < b.month)
    || (a.year == b.year && a.month == b.month && a.day < b.day)
  }

  /** The decimal digit character for 0..9. */
  function Digit(n: nat): char
    requires n < 10
  {
    (48 + n) as char
  }

  function Pow10(k: nat): (p: nat)
    ensures p >= 1
  {
    if k == 0 then 1 else 10 * Pow10(k - 1)
  }

  /** The last `width` decimal digits of `n`, padded on the left with '0',
      as strftime prints %Y (width 4), %m and %d (width 2). */
  function PadDigits(n: nat, width: nat): (s: string)
    ensures |s| == width
    ensures forall i :: 0 <= i < |s| ==> '0' <= s[i] <= '9'
  {
    if width == 0 then "" else PadDigits(n / 10, width - 1) + [Digit(n % 10)]
  }

  /** Two numbers below 10^width are told apart by their padded digits. */
  lemma {:induction false} PadDigitsInjective(a: nat, b: nat, width: nat)
    requires a < Pow10(width) && b < Pow10(width)
    requires PadDigits(a, width) == PadDigits(b, width)
    ensures a == b
  {
    if width > 0 {
      var sa := PadDigits(a, width);
      var sb := PadDigits(b, width);
      assert sa[width - 1] == Digit(a % 10);
      assert sb[width - 1] == Digit(b % 10);
      assert a % 10 == b % 10;
      assert sa[..width - 1] == PadDigits(a / 10, width - 1);
      assert sb[..width - 1] == PadDigits(b / 10, width - 1);
      PadDigitsInjective(a / 10, b / 10, width - 1);
    }
  }

  /** The text strftime('%Y-%m') prints for a year and month. */
  function MonthText(year: nat, month: nat): string {
    PadDigits(year, 4) + "-" + PadDigits(month, 2)
  }

  /** The text of a day in the ISO form YYYY-MM-DD used in provider requests. */
  function DateText(d: Date): string {
    MonthText(d.year, d.month) + "-" + PadDigits(d.day, 2)
  }

  /** Month texts agree exactly when year and month agree (for 4-digit
      years and 2-digit months, which covers every valid day). */
  lemma MonthTextInjective(y1: nat, m1: nat, y2: nat, m2: nat)
    requires y1 < 10000 && y2 < 10000 && m1 < 100 && m2 < 100
    ensures MonthText(y1, m1) == MonthText(y2, m2) <==> y1 == y2 && m1 == m2
  {
    if MonthText(y1, m1) == MonthText(y2, m2) {
      var s1 := MonthText(y1, m1);
      var s2 := MonthText(y2, m2);
      assert s1[..4] == PadDigits(y1, 4);
      assert s2[..4] == PadDigits(y2, 4);
      assert s1[5..] == PadDigits(m1, 2);
      assert s2[5..] == PadDigits(m2, 2);
      assert Pow10(2) == 100;
      assert Pow10(4) == 10000;
      PadDigitsInjective(y1, y2, 4);
      PadDigitsInjective(m1, m2, 2);
    }
  }

  /** Day texts agree exactly when the days agree. */
  lemma DateTextInjective(a: Date, b: Date)
    requires a.year < 10000 && b.year < 10000 && a.month < 100 && b.month < 100
    requires a.day < 100 && b.day < 100
    ensures DateText(a) == DateText(b) <==> a == b
  {
    if DateText(a) == DateText(b) {
      var sa := DateText(a);
      var sb := DateText(b);
      assert sa[..7] == MonthText(a.year, a.month);
      assert sb[..7] == MonthText(b.year, b.month);
      assert sa[8..] == PadDigits(a.day, 2);
      assert sb[8..] == PadDigits(b.day, 2);
      MonthTextInjective(a.year, a.month, b.year, b.month);
      assert Pow10(2) == 100;
      PadDigitsInjective(a.day, b.day, 2);
    }
  }

  /** Whether `d` is a valid day whose YYYY-MM-DD text is `text`. */
  predicate Names(text: string, d: Date) {
    Valid(d) && DateText(d) == text
  }
}

=== FILE: Fleet.dfy ===
/** The plant analyzer and the fleet loop (solar_analytics.py lines 36-98):
    each configured plant is analysed on its own, and the results that pass
    the quality gate are collected in configuration order. */
module Fleet {
  import opened Wrappers
  import Columns
  import opened Dates
  import opened Series
  import opened Ingest
  import opened Physics

  /** A configured plant: identifier, spreadsheet file name, capacity in
      kWp and coordinates. */
  datatype PlantConfig = PlantConfig(id: string, file: string, kwp: real, lat: real, lon: real)

  /** A calendar month number. */
  type Month = m: nat | 1 <= m <= 12 witness 1

  /** The run-wide settings: the target month, the seasonal tilt factor and
      the system-loss coefficient. */
  datatype Settings = Settings(year: nat, month: Month, tilt: real, loss: real)

  /** The settings the analyzer ships with: January 2026, tilt 1.35, loss 0.85. */
  const Configured: Settings := Settings(2026, 1, 1.35, 0.85)

  /** The target month as the analyzer writes it, YYYY-MM. */
  function TargetText(s: Settings): string {
    MonthText(s.year, s.month)
  }

  /** What the file system holds under a file name that exists. */
  datatype FileState = Readable(sheet: Sheet) | Unreadable

  /** A request for daily irradiance at a location over a date range. */
  datatype Request = Request(lat: real, lon: real, start: string, end: string)

  /** Everything outside the analyzer: the files present and the irradiance
      provider. The provider answers a request with daily MJ/m² values, or
      None when every attempt failed. */
  datatype Environment = Environment(
    files: map<string, FileState>,
    provider: Request -> Option<seq<DatedValue>>)

  /** Why a plant is skipped. */
  datatype PlantError =
    | FileNotFound           // the existence check fails
    | SourceUnreadable       // the spreadsheet reader raises
    | Unusable(cause: IngestError)
    | IrradianceUnavailable  // no usable provider response

  /** One line of the fleet summary. */
  datatype Analysis = Analysis(id: string, kwp: real, actual: real, expected: real, pr: real, status: Status)

  /** The request exactly as the analyzer builds it: from day 01 to day 31
      of the target month, whatever the month. */
  function RequestAsWritten(p: PlantConfig, s: Settings): Request {
    Request(p.lat, p.lon, TargetText(s) + "-01", TargetText(s) + "-31")
  }

  /** For a month with fewer than 31 days, the end date as written names no
      calendar day. */
  lemma RequestAsWrittenEndNamesNoDay(p: PlantConfig, s: Settings)
    requires s.year < 10000 && DaysInMonth(s.year, s.month) < 31
    ensures forall d :: !Names(RequestAsWritten(p, s).end, d)
  {
    var bad := Date(s.year, s.month, 31);
    assert PadDigits(31, 2) == "31";
    assert RequestAsWritten(p, s).end == DateText(bad);
    forall d | Valid(d) ensures DateText(d) != DateText(bad) {
      DateTextInjective(d, bad);
    }
  }

  /** February 2026: the analyzer asks for data up to "2026-02-31". */
  lemma February2026RequestAsWritten(p: PlantConfig)
    ensures RequestAsWritten(p, Settings(2026, 2, 1.35, 0.85)).end == "2026-02-31"
    ensures forall d :: !Names(RequestAsWritten(p, Settings(2026, 2, 1.35, 0.85)).end, d)
  {
    var s := Settings(2026, 2, 1.35, 0.85);
    YearDigits2026();
    MonthDigits2();
    RequestAsWrittenEndNamesNoDay(p, s);
  }

  /** The year 2026 is printed as "2026". */
  lemma YearDigits2026()
    ensures PadDigits(2026, 4) == "2026"
  {
    assert PadDigits(2, 1) == "2";
    assert PadDigits(20, 2) == "20";
    assert PadDigits(202, 3) == "202";
  }

  /** February is printed as "02". */
  lemma MonthDigits2()
    ensures PadDigits(2, 2) == "02"
  {
    assert PadDigits(0, 1) == "0";
  }

  /** The request over the target month's real span, first to last day. */
  function IrradianceRequest(p: PlantConfig, s: Settings): Request {
    Request(p.lat, p.lon,
      DateText(Date(s.year, s.month, 1)),
      DateText(Date(s.year, s.month, DaysInMonth(s.year, s.month))))
  }

  /** The corrected request names the first and the last day of the target
      month, and every day of the month lies between them. */
  lemma IrradianceRequestSpansMonth(p: PlantConfig, s: Settings)
    requires 1677 <= s.year <= 2262
    ensures Names(IrradianceRequest(p, s).start, Date(s.year, s.month, 1))
    ensures Names(IrradianceRequest(p, s).end, Date(s.year, s.month, DaysInMonth(s.year, s.month)))
    ensures forall d :: Valid(d) && d.year == s.year && d.month == s.month ==>
      !Before(d, Date(s.year, s.month, 1)) && !Before(Date(s.year, s.month, DaysInMonth(s.year, s.month)), d)
  {
  }

  /** The corrected request differs from the one the analyzer builds exactly
      in the months shorter than 31 days; in the others they coincide. */
  lemma RequestsAgreeOn31DayMonths(p: PlantConfig, s: Settings)
    requires s.year < 10000
    ensures IrradianceRequest(p, s) == RequestAsWritten(p, s) <==> DaysInMonth(s.year, s.month) == 31
  {
    assert PadDigits(1, 2) == "01";
    assert PadDigits(31, 2) == "31";
    assert IrradianceRequest(p, s).start == RequestAsWritten(p, s).start;
    assert RequestAsWritten(p, s).end == DateText(Date(s.year, s.month, 31));
    DateTextInjective(Date(s.year, s.month, DaysInMonth(s.year, s.month)), Date(s.year, s.month, 31));
  }

  /** The per-plant analysis: read the sheet, ingest it, fetch irradiance,
      join on the day, total, and score. */
  function AnalysePlant(p: PlantConfig, s: Settings, env: Environment): (r: Result<Analysis, PlantError>)
    ensures r == Failure(FileNotFound) <==> p.file !in env.files
    ensures r == Failure(SourceUnreadable) <==> p.file in env.files && env.files[p.file].Unreadable?
    ensures r.Success? ==> r.value.id == p.id && r.value.kwp == p.kwp
    ensures r.Success? ==> r.value.status == Classify(r.value.pr)
  {
    if p.file !in env.files then Failure(FileNotFound)
    else match env.files[p.file]
      case Unreadable => Failure(SourceUnreadable)
      case Readable(sheet) =>
        match Extract(sheet, TargetText(s))
        case Failure(e) => Failure(Unusable(e))
        case Success(ys) =>
          match env.provider(IrradianceRequest(p, s))
          case None => Failure(IrradianceUnavailable)
          case Some(irr) => Success(Score(p, s, ys, irr))
  }

  /** Steps 5 and 6 of the analysis: join the daily yields with the
      converted irradiance, total both sides, and score the plant. */
  function Score(p: PlantConfig, s: Settings, ys: seq<DatedValue>, irr: seq<DatedValue>): (a: Analysis)
    ensures a.id == p.id && a.kwp == p.kwp
    ensures a.status == Classify(a.pr)
    ensures a.expected > 0.0 ==> a.pr * a.expected == 100.0 * a.actual
    ensures a.expected <= 0.0 ==> a.pr == 0.0
  {
    var ms := Join(ys, ToKWh(irr));
    var actual := ActualSum(ms);
    var expected := ExpectedSum(ms, s.tilt, p.kwp, s.loss);
    var pr := PerformanceRatio(actual, expected);
    Analysis(p.id, p.kwp, actual, expected, pr, Classify(pr))
  }

  /** The daily yields the analysis works from, when its sheet is ingested. */
  function YieldsOf(p: PlantConfig, s: Settings, env: Environment): Option<seq<DatedValue>> {
    if p.file in env.files && env.files[p.file].Readable? then
      match Extract(env.files[p.file].sheet, TargetText(s))
      case Success(ys) => Some(ys)
      case Failure(_) => None
    else None
  }

  /** The provider's answer for the plant's request. */
  function IrradianceOf(p: PlantConfig, s: Settings, env: Environment): Option<seq<DatedValue>> {
    env.provider(IrradianceRequest(p, s))
  }

  /** An analysis succeeds exactly when the sheet is ingested and the
      provider answers. */
  lemma AnalysePlantSucceeds(p: PlantConfig, s: Settings, env: Environment)
    ensures AnalysePlant(p, s, env).Success? <==> YieldsOf(p, s, env).Some? && IrradianceOf(p, s, env).Some?
  {
  }

  /** A readable sheet without a production column makes the analysis
      fail, so the plant never enters the summary. */
  lemma NoProductionColumnSkipped(p: PlantConfig, s: Settings, env: Environment)
    requires p.file in env.files && env.files[p.file].Readable?
    requires forall h :: h in env.files[p.file].sheet.headers ==> !Columns.IsProductionHeader(h)
    ensures AnalysePlant(p, s, env) == Failure(Unusable(ColumnNotFound))
    ensures !Kept(AnalysePlant(p, s, env))
  {
  }

  /** A successful analysis scores the ingested yields against the
      provider's series; the yields have one entry per day. */
  lemma AnalysePlantIsScore(p: PlantConfig, s: Settings, env: Environment)
    requires AnalysePlant(p, s, env).Success?
    ensures YieldsOf(p, s, env).Some? && IrradianceOf(p, s, env).Some?
    ensures StrictlySorted(YieldsOf(p, s, env).value)
    ensures AnalysePlant(p, s, env).value
      == Score(p, s, YieldsOf(p, s, env).value, IrradianceOf(p, s, env).value)
  {
  }

  /** The scoring's actual total is the yield of the days the irradiance
      series covers (each reported once). */
  lemma ScoreActual(p: PlantConfig, s: Settings, ys: seq<DatedValue>, irr: seq<DatedValue>)
    requires DistinctDates(irr)
    ensures Score(p, s, ys, irr).actual == SumWhere(ys, DatesOf(irr))
  {
    ToKWhKeepsDates(irr);
    JoinActual(ys, ToKWh(irr));
  }

  /** The scoring's expected total is the model applied to the irradiance of
      the days the yields cover (each reported once). */
  lemma ScoreExpected(p: PlantConfig, s: Settings, ys: seq<DatedValue>, irr: seq<DatedValue>)
    requires DistinctDates(ys)
    ensures Score(p, s, ys, irr).expected
      == ExpectedDay(SumWhere(irr, DatesOf(ys)) / MJPerKWh, s.tilt, p.kwp, s.loss)
  {
    ExpectedOverJoin(ys, irr, s.tilt, p.kwp, s.loss);
  }

  /** The totals of a successful analysis, when the provider reports each day once. */
  lemma AnalysisTotals(p: PlantConfig, s: Settings, env: Environment)
    requires AnalysePlant(p, s, env).Success?
    requires DistinctDates(IrradianceOf(p, s, env).value)
    ensures StrictlySorted(YieldsOf(p, s, env).value)
    ensures var a := AnalysePlant(p, s, env).value;
      var ys := YieldsOf(p, s, env).value;
      var irr := IrradianceOf(p, s, env).value;
      && a.actual == SumWhere(ys, DatesOf(irr))
      && a.expected == ExpectedDay(SumWhere(irr, DatesOf(ys)) / MJPerKWh, s.tilt, p.kwp, s.loss)
  {
    AnalysePlantIsScore(p, s, env);
    SortedIsDistinct(YieldsOf(p, s, env).value);
    ScoreActual(p, s, YieldsOf(p, s, env).value, IrradianceOf(p, s, env).value);
    ScoreExpected(p, s, YieldsOf(p, s, env).value, IrradianceOf(p, s, env).value);
  }

  /** With no day in common, nothing is actual or expected: the ratio is 0,
      the plant is kept and marked Review Needed (not an error). */
  lemma NoOverlapIsReviewNeeded(p: PlantConfig, s: Settings, env: Environment)
    requires AnalysePlant(p, s, env).Success?
    requires DatesOf(YieldsOf(p, s, env).value) !! DatesOf(IrradianceOf(p, s, env).value)
    ensures var a := AnalysePlant(p, s, env).value;
      a.actual == 0.0 && a.expected == 0.0 && a.pr == 0.0
      && a.status == ReviewNeeded && PassesGate(a.pr)
  {
    var ys := YieldsOf(p, s, env).value;
    var irr := IrradianceOf(p, s, env).value;
    AnalysePlantIsScore(p, s, env);
    ToKWhKeepsDates(irr);
    JoinEmptyIffDisjoint(ys, ToKWh(irr));
  }

  /** A worked day: 3000 kWh produced by a 1000 kWp plant under 10.8 MJ/m²
      (3 kWh/m²) with the shipped settings. Expected is 3442.5 kWh, the ratio
      is about 87.1 and the plant is rated Excellent. */
  lemma OneDayExample(p: PlantConfig, d: Date)
    requires p.kwp == 1000.0
    ensures var a := Score(p, Configured, [DatedValue(d, 3000.0)], [DatedValue(d, 10.8)]);
      a.actual == 3000.0 && a.expected == 3442.5 && a.status == Excellent && PassesGate(a.pr)
  {
    var irr := [DatedValue(d, 10.8)];
    ScoreActual(p, Configured, [DatedValue(d, 3000.0)], irr);
    ScoreExpected(p, Configured, [DatedValue(d, 3000.0)], irr);
    assert SumWhere(irr, {d}) == 10.8;
    var a := Score(p, Configured, [DatedValue(d, 3000.0)], irr);
    assert a.pr * 3442.5 == 300000.0;
  }

  /** Whether an analysis outcome enters the summary: a success that
      passes the quality gate. */
  predicate Kept(o: Result<Analysis, PlantError>) {
    o.Success? && PassesGate(o.value.pr)
  }

  /** What one outcome adds to the summary: the analysis if kept, else nothing. */
  function Keep(o: Result<Analysis, PlantError>): (r: seq<Analysis>)
    ensures |r| <= 1
    ensures r != [] <==> Kept(o)
    ensures r != [] ==> r[0] == o.value
  {
    if Kept(o) then [o.value] else []
  }

  /** The analysis outcome of each configured plant, in configuration order. */
  function Outcomes(plants: seq<PlantConfig>, s: Settings, env: Environment): (os: seq<Result<Analysis, PlantError>>)
    ensures |os| == |plants|
    ensures forall i :: 0 <= i < |plants| ==> os[i] == AnalysePlant(plants[i], s, env)
  {
    seq(|plants|, i requires 0 <= i < |plants| => AnalysePlant(plants[i], s, env))
  }

  /** The kept analyses of a run of outcomes, in order. */
  function Collect(os: seq<Result<Analysis, PlantError>>): (r: seq<Analysis>)
    ensures |r| <= |os|
    ensures forall a :: a in r ==> PassesGate(a.pr)
  {
    if os == [] then [] else Collect(os[..|os| - 1]) + Keep(os[|os| - 1])
  }

  /** The fleet summary: the kept analyses of the configured plants. */
  function Summary(plants: seq<PlantConfig>, s: Settings, env: Environment): seq<Analysis> {
    Collect(Outcomes(plants, s, env))
  }

  /** The analyzer's loop: one plant at a time, appending each analysis that
      succeeds and passes the gate. */
  method RunFleet(plants: seq<PlantConfig>, s: Settings, env: Environment) returns (summary: seq<Analysis>)
    ensures summary == Summary(plants, s, env)
    ensures |summary| <= |plants|
    ensures forall a :: a in summary ==> PassesGate(a.pr)
  {
    ghost var os := Outcomes(plants, s, env);
    summary := [];
    var i := 0;
    while i < |plants|
      invariant 0 <= i <= |plants|
      invariant summary == Collect(os[..i])
    {
      var o := AnalysePlant(plants[i], s, env);
      if o.Success? && PassesGate(o.value.pr) {
        summary := summary + [o.value];
      }
      assert os[..i + 1][..i] == os[..i];
      i := i + 1;
    }
    assert os[..i] == os;
  }

  /** Collecting two runs of outcomes one after the other gives the two
      collections one after the other. */
  lemma {:induction false} CollectAppend(a: seq<Result<Analysis, PlantError>>, b: seq<Result<Analysis, PlantError>>)
    ensures Collect(a + b) == Collect(a) + Collect(b)
    decreases |b|
  {
    if b == [] {
      assert a + b == a;
    } else {
      var b' := b[..|b| - 1];
      assert (a + b)[..|a + b| - 1] == a + b';
      assert (a + b)[|a + b| - 1] == b[|b| - 1];
      CollectAppend(a, b');
    }
  }

  /** The summary of two plant lists run one after the other is the two
      summaries one after the other: plants do not influence each other. */
  lemma SummaryAppend(a: seq<PlantConfig>, b: seq<PlantConfig>, s: Settings, env: Environment)
    ensures Summary(a + b, s, env) == Summary(a, s, env) + Summary(b, s, env)
  {
    OutcomesAppend(a, b, s, env);
    CollectAppend(Outcomes(a, s, env), Outcomes(b, s, env));
  }

  /** Each plant's outcome depends on that plant alone. */
  lemma OutcomesAppend(a: seq<PlantConfig>, b: seq<PlantConfig>, s: Settings, env: Environment)
    ensures Outcomes(a + b, s, env) == Outcomes(a, s, env) + Outcomes(b, s, env)
  {
    var whole, left, right := Outcomes(a + b, s, env), Outcomes(a, s, env), Outcomes(b, s, env);
    forall i | 0 <= i < |whole| ensures whole[i] == (left + right)[i] {
      if i < |a| {
        assert (a + b)[i] == a[i];
      } else {
        assert (a + b)[i] == b[i - |a|];
      }
    }
  }

  /** A collected analysis is exactly a kept outcome of the run. */
  lemma {:induction false} CollectMembers(os: seq<Result<Analysis, PlantError>>)
    ensures forall a :: a in Collect(os) <==>
      exists i :: 0 <= i < |os| && Kept(os[i]) && a == os[i].value
  {
    if os != [] {
      var n := |os| - 1;
      var init := os[..n];
      CollectMembers(init);
      forall a | a in Collect(os)
        ensures exists i :: 0 <= i < |os| && Kept(os[i]) && a == os[i].value
      {
        if a in Collect(init) {
          var i :| 0 <= i < |init| && Kept(init[i]) && a == init[i].value;
          assert init[i] == os[i];
        }
      }
      forall i | 0 <= i < |os| && Kept(os[i])
        ensures os[i].value in Collect(os)
      {
        if i < n {
          assert init[i] == os[i];
        }
      }
    }
  }

  /** A summary line is exactly the analysis of a configured plant that
      succeeded and passed the gate. */
  lemma SummaryMembers(plants: seq<PlantConfig>, s: Settings, env: Environment)
    ensures forall a :: a in Summary(plants, s, env) <==>
      exists i :: 0 <= i < |plants| && Kept(AnalysePlant(plants[i], s, env))
                  && a == AnalysePlant(plants[i], s, env).value
  {
    var os := Outcomes(plants, s, env);
    CollectMembers(os);
    forall a ensures a in Summary(plants, s, env) <==>
      exists i :: 0 <= i < |plants| && Kept(AnalysePlant(plants[i], s, env))
                  && a == AnalysePlant(plants[i], s, env).value
    {
      if a in Summary(plants, s, env) {
        var i :| 0 <= i < |os| && Kept(os[i]) && a == os[i].value;
        assert os[i] == AnalysePlant(plants[i], s, env);
      }
      if exists i :: 0 <= i < |plants| && Kept(AnalysePlant(plants[i], s, env))
                     && a == AnalysePlant(plants[i], s, env).value {
        var i :| 0 <= i < |plants| && Kept(AnalysePlant(plants[i], s, env))
                 && a == AnalysePlant(plants[i], s, env).value;
        assert os[i] == AnalysePlant(plants[i], s, env);
      }
    }
  }

  /** The identifiers of the configured plants. */
  function PlantIds(plants: seq<PlantConfig>): (r: seq<string>)
    ensures |r| == |plants|
    ensures forall i :: 0 <= i < |plants| ==> r[i] == plants[i].id
  {
    seq(|plants|, i requires 0 <= i < |plants| => plants[i].id)
  }

  /** The identifiers of the summary lines. */
  function EntryIds(entries: seq<Analysis>): (r: seq<string>)
    ensures |r| == |entries|
    ensures forall i :: 0 <= i < |entries| ==> r[i] == entries[i].id
  {
    seq(|entries|, i requires 0 <= i < |entries| => entries[i].id)
  }

  /** `xs` is `ys` with some elements removed, order kept. */
  predicate IsSubsequence(xs: seq<string>, ys: seq<string>)
    decreases |ys|
  {
    if xs == [] then true
    else if ys == [] then false
    else
      || (xs[|xs| - 1] == ys[|ys| - 1] && IsSubsequence(xs[..|xs| - 1], ys[..|ys| - 1]))
      || IsSubsequence(xs, ys[..|ys| - 1])
  }

  /** Collected identifiers keep the order of the run's identifiers. */
  lemma {:induction false} CollectOrder(os: seq<Result<Analysis, PlantError>>, ids: seq<string>)
    requires |ids| == |os|
    requires forall i :: 0 <= i < |os| && os[i].Success? ==> os[i].value.id == ids[i]
    ensures IsSubsequence(EntryIds(Collect(os)), ids)
  {
    if os != [] {
      var n := |os| - 1;
      CollectOrder(os[..n], ids[..n]);
      var prev := EntryIds(Collect(os[..n]));
      var xs := EntryIds(Collect(os));
      if Kept(os[n]) {
        assert xs[..|xs| - 1] == prev;
        assert xs[|xs| - 1] == ids[n];
      } else {
        assert xs == prev;
        if xs != [] {
          assert ids[..|ids| - 1] == ids[..n];
        }
      }
    }
  }

  /** The summary's identifiers appear in configuration order: they are a
      subsequence of the configured identifiers. */
  lemma SummaryOrder(plants: seq<PlantConfig>, s: Settings, env: Environment)
    ensures IsSubsequence(EntryIds(Summary(plants, s, env)), PlantIds(plants))
  {
    CollectOrder(Outcomes(plants, s, env), PlantIds(plants));
  }

  /** No identifier repeats. */
  predicate Distinct(ids: seq<string>) {
    forall i, j :: 0 <= i < j < |ids| ==> ids[i] != ids[j]
  }

  /** With distinct identifiers in the run, the collected identifiers are distinct. */
  lemma {:induction false} CollectUnique(os: seq<Result<Analysis, PlantError>>, ids: seq<string>)
    requires |ids| == |os| && Distinct(ids)
    requires forall i :: 0 <= i < |os| && os[i].Success? ==> os[i].value.id == ids[i]
    ensures Distinct(EntryIds(Collect(os)))
  {
    if os != [] {
      var n := |os| - 1;
      var init := os[..n];
      CollectUnique(init, ids[..n]);
      CollectMembers(init);
      var prev := Collect(init);
      if Kept(os[n]) {
        forall i | 0 <= i < |prev| ensures prev[i].id != ids[n] {
          assert prev[i] in prev;
          var k :| 0 <= k < |init| && Kept(init[k]) && prev[i] == init[k].value;
          assert init[k] == os[k];
        }
      }
    }
  }

  /** With unique plant identifiers, each plant appears in the summary at
      most once. */
  lemma SummaryUnique(plants: seq<PlantConfig>, s: Settings, env: Environment)
    requires Distinct(PlantIds(plants))
    ensures Distinct(EntryIds(Summary(plants, s, env)))
  {
    CollectUnique(Outcomes(plants, s, env), PlantIds(plants));
  }

  /** An empty configuration produces an empty summary (nothing to report). */
  lemma EmptyFleetNothingToReport(s: Settings, env: Environment)
    ensures Summary([], s, env) == []
  {
  }
}

=== FILE: Ingest.dfy ===
/** The yield ingestor (solar_analytics.py lines 55-66): from one plant's
    spreadsheet to a daily yield series for the target month.

    Steps, in the analyzer's order: detect the production column, select it
    with the `Tarih` date column, drop rows whose date does not parse, sum
    the rows of each day (grouping sorts the days), keep the days of the
    target month, and rescale by 1000 when the mean looks like MWh. */
module Ingest {
  import opened Wrappers
  import opened Dates
  import opened Columns
  import opened Series

  /** How one spreadsheet cell reads: as a date (None when the date parser,
      in its coercing mode, cannot read it) and as a number (None for a
      blank or NaN cell). */
  datatype Cell = Cell(asDate: Option<Date>, asNumber: Option<real>)

  /** A spreadsheet as the reader returns it: the header row and the data rows. */
  datatype Sheet = Sheet(headers: seq<string>, rows: seq<seq<Cell>>)

  /** Why a readable spreadsheet still cannot be ingested. */
  datatype IngestError =
    | ColumnNotFound     // no header names actual production
    | DateColumnMissing  // no `Tarih` column to select

  /** The cell in column `col`; a row shorter than the header reads blank there. */
  function CellAt(row: seq<Cell>, col: nat): Cell {
    if col < |row| then row[col] else Cell(None, None)
  }

  /** The number a yield cell contributes to a sum: blanks and NaN count 0,
      as pandas' sum skips them. */
  function YieldOf(c: Cell): real {
    match c.asNumber
    case Some(x) => x
    case None => 0.0
  }

  /** Whether a row's date cell parses. */
  predicate Parses(row: seq<Cell>, dateCol: nat) {
    CellAt(row, dateCol).asDate.Some?
  }

  /** The record a row with a parsed date contributes: its day and its yield. */
  function RowRecord(row: seq<Cell>, dateCol: nat, yieldCol: nat): DatedValue
    requires Parses(row, dateCol)
  {
    DatedValue(CellAt(row, dateCol).asDate.value, YieldOf(CellAt(row, yieldCol)))
  }

  /** Selecting the date and yield columns and dropping the rows whose date
      did not parse. */
  function ParseRows(rows: seq<seq<Cell>>, dateCol: nat, yieldCol: nat): (r: seq<DatedValue>)
    ensures |r| <= |rows|
    ensures forall x :: x in r <==>
      exists i :: 0 <= i < |rows| && Parses(rows[i], dateCol) && x == RowRecord(rows[i], dateCol, yieldCol)
  {
    if rows == [] then []
    else
      var rest := ParseRows(rows[1..], dateCol, yieldCol);
      var r := if Parses(rows[0], dateCol) then [RowRecord(rows[0], dateCol, yieldCol)] + rest else rest;
      assert forall x :: x in r <==>
        exists i :: 0 <= i < |rows| && Parses(rows[i], dateCol) && x == RowRecord(rows[i], dateCol, yieldCol) by {
        forall x | x in r
          ensures exists i :: 0 <= i < |rows| && Parses(rows[i], dateCol) && x == RowRecord(rows[i], dateCol, yieldCol)
        {
          if x in rest {
            var i :| 0 <= i < |rows[1..]| && Parses(rows[1..][i], dateCol) && x == RowRecord(rows[1..][i], dateCol, yieldCol);
            assert rows[1..][i] == rows[i + 1];
          } else {
            assert Parses(rows[0], dateCol) && x == RowRecord(rows[0], dateCol, yieldCol);
          }
        }
        forall i | 0 <= i < |rows| && Parses(rows[i], dateCol)
          ensures RowRecord(rows[i], dateCol, yieldCol) in r
        {
          if i > 0 {
            assert rows[1..][i - 1] == rows[i];
          }
        }
      }
      r
  }

  /** The yield the sheet records for day `d`: the sum over every row whose
      date parses to `d`, a blank or NaN yield counting 0. */
  function RowsSumOn(rows: seq<seq<Cell>>, dateCol: nat, yieldCol: nat, d: Date): real {
    if rows == [] then 0.0
    else
      (if CellAt(rows[0], dateCol).asDate == Some(d) then YieldOf(CellAt(rows[0], yieldCol)) else 0.0)
      + RowsSumOn(rows[1..], dateCol, yieldCol, d)
  }

  /** The days the sheet's rows name. */
  function RowDates(rows: seq<seq<Cell>>, dateCol: nat): set<Date> {
    set i | 0 <= i < |rows| && Parses(rows[i], dateCol) :: CellAt(rows[i], dateCol).asDate.value
  }

  /** Reference definition: the yield of all sheet rows whose date is one of `days`. */
  function RowsSumWhere(rows: seq<seq<Cell>>, dateCol: nat, yieldCol: nat, days: set<Date>): real {
    if rows == [] then 0.0
    else
      (if Parses(rows[0], dateCol) && CellAt(rows[0], dateCol).asDate.value in days
       then YieldOf(CellAt(rows[0], yieldCol)) else 0.0)
      + RowsSumWhere(rows[1..], dateCol, yieldCol, days)
  }

  /** The parsed records dated in `days` sum to the yield of the sheet rows dated in `days`. */
  lemma {:induction false} ParseRowsSumWhere(rows: seq<seq<Cell>>, dateCol: nat, yieldCol: nat, days: set<Date>)
    ensures SumWhere(ParseRows(rows, dateCol, yieldCol), days) == RowsSumWhere(rows, dateCol, yieldCol, days)
  {
    if rows != [] {
      ParseRowsSumWhere(rows[1..], dateCol, yieldCol, days);
    }
  }

  /** Parsing keeps each day's total: the parsed records of day `d` sum to
      the yield of the rows dated `d`. */
  lemma {:induction false} ParseRowsSumOn(rows: seq<seq<Cell>>, dateCol: nat, yieldCol: nat, d: Date)
    ensures SumOn(ParseRows(rows, dateCol, yieldCol), d) == RowsSumOn(rows, dateCol, yieldCol, d)
  {
    if rows != [] {
      ParseRowsSumOn(rows[1..], dateCol, yieldCol, d);
    }
  }

  /** The parsed records name exactly the days of the rows whose date parses. */
  lemma ParseRowsDates(rows: seq<seq<Cell>>, dateCol: nat, yieldCol: nat)
    ensures DatesOf(ParseRows(rows, dateCol, yieldCol)) == RowDates(rows, dateCol)
  {
    var r := ParseRows(rows, dateCol, yieldCol);
    forall d | d in DatesOf(r) ensures d in RowDates(rows, dateCol) {
      var j :| 0 <= j < |r| && r[j].date == d;
      assert r[j] in r;
      var i :| 0 <= i < |rows| && Parses(rows[i], dateCol) && r[j] == RowRecord(rows[i], dateCol, yieldCol);
    }
    forall d | d in RowDates(rows, dateCol) ensures d in DatesOf(r) {
      var i :| 0 <= i < |rows| && Parses(rows[i], dateCol) && CellAt(rows[i], dateCol).asDate.value == d;
      var x := RowRecord(rows[i], dateCol, yieldCol);
      assert x in r;
      var j :| 0 <= j < |r| && r[j] == x;
    }
  }

  /** A row whose date does not parse contributes nothing, wherever it sits. */
  lemma {:induction false} UnparsedRowIgnored(pre: seq<seq<Cell>>, row: seq<Cell>, post: seq<seq<Cell>>, dateCol: nat, yieldCol: nat)
    requires CellAt(row, dateCol).asDate.None?
    ensures ParseRows(pre + [row] + post, dateCol, yieldCol) == ParseRows(pre + post, dateCol, yieldCol)
  {
    if pre == [] {
      assert pre + [row] + post == [row] + post;
      assert ([row] + post)[1..] == post;
      assert pre + post == post;
    } else {
      assert (pre + [row] + post)[0] == pre[0];
      assert (pre + [row] + post)[1..] == pre[1..] + [row] + post;
      assert (pre + post)[0] == pre[0];
      assert (pre + post)[1..] == pre[1..] + post;
      UnparsedRowIgnored(pre[1..], row, post, dateCol, yieldCol);
    }
  }

  /** Adding one reading to a strictly sorted day series: added to the day's
      entry when the day is there, inserted in date order otherwise. */
  function Insert(acc: seq<DatedValue>, x: DatedValue): seq<DatedValue> {
    if acc == [] then [x]
    else if acc[0].date == x.date then [DatedValue(x.date, acc[0].value + x.value)] + acc[1..]
    else if Before(x.date, acc[0].date) then [x] + acc
    else [acc[0]] + Insert(acc[1..], x)
  }

  /** Insert keeps the series sorted, adds the reading's day, and adds the
      reading's value to that day only. */
  lemma InsertSpec(acc: seq<DatedValue>, x: DatedValue)
    requires StrictlySorted(acc)
    ensures StrictlySorted(Insert(acc, x))
    ensures DatesOf(Insert(acc, x)) == DatesOf(acc) + {x.date}
    ensures forall d :: SumOn(Insert(acc, x), d) == SumOn(acc, d) + (if d == x.date then x.value else 0.0)
  {
    InsertSorted(acc, x);
    InsertDates(acc, x);
    InsertSums(acc, x);
  }

  /** Insert adds exactly the reading's day. */
  lemma {:induction false} InsertDates(acc: seq<DatedValue>, x: DatedValue)
    ensures DatesOf(Insert(acc, x)) == DatesOf(acc) + {x.date}
  {
    var r := Insert(acc, x);
    if acc == [] {
      DatesOfCons(r);
      assert r[1..] == [];
    } else if acc[0].date == x.date {
      DatesOfCons(acc);
      DatesOfCons(r);
      assert r[1..] == acc[1..];
    } else if Before(x.date, acc[0].date) {
      DatesOfCons(r);
      assert r[1..] == acc;
    } else {
      InsertDates(acc[1..], x);
      assert r[1..] == Insert(acc[1..], x);
      DatesOfCons(acc);
      DatesOfCons(r);
    }
  }

  /** Insert keeps a sorted series sorted. */
  lemma {:induction false} InsertSorted(acc: seq<DatedValue>, x: DatedValue)
    requires StrictlySorted(acc)
    ensures StrictlySorted(Insert(acc, x))
  {
    var r := Insert(acc, x);
    if acc == [] {
    } else if acc[0].date == x.date {
      assert r[1..] == acc[1..];
      SortedHeadFirst(acc);
      PrependSorted(r[0], acc[1..]);
    } else if Before(x.date, acc[0].date) {
      SortedHeadFirst(r);
      PrependSorted(x, acc);
    } else {
      var tail := Insert(acc[1..], x);
      InsertSorted(acc[1..], x);
      InsertDates(acc[1..], x);
      assert r[1..] == tail;
      SortedHeadFirst(acc);
      forall y | y in tail ensures Before(acc[0].date, y.date) {
        var j :| 0 <= j < |tail| && tail[j] == y;
        assert y.date in DatesOf(tail);
      }
      PrependSorted(acc[0], tail);
    }
  }

  /** Insert adds the reading's value to its own day and to no other. */
  lemma {:induction false} InsertSums(acc: seq<DatedValue>, x: DatedValue)
    ensures forall d :: SumOn(Insert(acc, x), d) == SumOn(acc, d) + (if d == x.date then x.value else 0.0)
  {
    var r := Insert(acc, x);
    if acc == [] {
    } else if acc[0].date == x.date {
      assert r[1..] == acc[1..];
    } else if Before(x.date, acc[0].date) {
      assert r[1..] == acc;
    } else {
      InsertSums(acc[1..], x);
      assert r[1..] == Insert(acc[1..], x);
    }
  }

  /** `groupby('Tarih').sum()`: one entry per day, in date order. */
  function GroupSum(s: seq<DatedValue>): seq<DatedValue> {
    if s == [] then [] else Insert(GroupSum(s[1..]), s[0])
  }

  /** Grouping gives a strictly sorted series (so at most one entry per
      day) over exactly the input's days, and each day's entry holds the sum
      of all input values of that day. */
  lemma {:induction false} GroupSumSpec(s: seq<DatedValue>)
    ensures StrictlySorted(GroupSum(s))
    ensures DatesOf(GroupSum(s)) == DatesOf(s)
    ensures forall d :: SumOn(GroupSum(s), d) == SumOn(s, d)
  {
    if s != [] {
      GroupSumSpec(s[1..]);
      InsertSpec(GroupSum(s[1..]), s[0]);
      DatesOfCons(s);
    }
  }

  /** Each surviving entry's value is the sum of the input values of its day. */
  lemma GroupSumValues(s: seq<DatedValue>)
    ensures DistinctDates(GroupSum(s))
    ensures forall i :: 0 <= i < |GroupSum(s)| ==> GroupSum(s)[i].value == SumOn(s, GroupSum(s)[i].date)
  {
    var g := GroupSum(s);
    GroupSumSpec(s);
    SortedIsDistinct(g);
    forall i | 0 <= i < |g| ensures g[i].value == SumOn(s, g[i].date) {
      SumOnDistinct(g, i);
    }
  }

  /** An already grouped series is left as it is. */
  lemma {:induction false} GroupSumOfSorted(s: seq<DatedValue>)
    requires StrictlySorted(s)
    ensures GroupSum(s) == s
  {
    if s != [] {
      GroupSumOfSorted(s[1..]);
      assert GroupSum(s[1..]) == s[1..];
      if |s| > 1 {
        assert Before(s[0].date, s[1].date);
      }
    }
  }

  /** Grouping is idempotent. */
  lemma GroupSumIdempotent(s: seq<DatedValue>)
    ensures GroupSum(GroupSum(s)) == GroupSum(s)
  {
    GroupSumSpec(s);
    GroupSumOfSorted(GroupSum(s));
  }

  /** Whether day `d` prints as the target month under strftime('%Y-%m'). */
  predicate InMonth(d: Date, target: string) {
    MonthText(d.year, d.month) == target
  }

  /** The rows of the target month, in their original order. */
  function MonthFilter(s: seq<DatedValue>, target: string): (r: seq<DatedValue>)
    ensures forall x :: x in r <==> x in s && InMonth(x.date, target)
    ensures StrictlySorted(s) ==> StrictlySorted(r)
    ensures |r| <= |s|
  {
    if s == [] then []
    else if InMonth(s[0].date, target) then
      var rest := MonthFilter(s[1..], target);
      assert StrictlySorted(s) ==> StrictlySorted([s[0]] + rest) by {
        if StrictlySorted(s) {
          SortedHeadFirst(s);
          PrependSorted(s[0], rest);
        }
      }
      [s[0]] + rest
    else MonthFilter(s[1..], target)
  }

  /** For a valid day, matching the target month's text means matching its
      year and month. */
  lemma InMonthMeansSameMonth(d: Date, year: nat, month: nat)
    requires Valid(d) && year < 10000 && month < 100
    ensures InMonth(d, MonthText(year, month)) <==> d.year == year && d.month == month
  {
    MonthTextInjective(d.year, d.month, year, month);
  }

  /** The days around January 2026 are excluded from it. */
  lemma JanuaryBoundaries()
    ensures !InMonth(Date(2025, 12, 31), MonthText(2026, 1))
    ensures !InMonth(Date(2026, 2, 1), MonthText(2026, 1))
    ensures InMonth(Date(2026, 1, 1), MonthText(2026, 1))
    ensures InMonth(Date(2026, 1, 31), MonthText(2026, 1))
  {
    InMonthMeansSameMonth(Date(2025, 12, 31), 2026, 1);
    InMonthMeansSameMonth(Date(2026, 2, 1), 2026, 1);
  }

  /** Mean yields below this look like MWh and are rescaled. */
  const UnitThreshold: real := 100.0

  /** MWh to kWh. */
  const UnitFactor: real := 1000.0

  function Mean(s: seq<DatedValue>): real
    requires |s| > 0
  {
    Total(s) / (|s| as real)
  }

  /** The unit heuristic's trigger: a non-empty series with mean below 100. */
  predicate LooksLikeMWh(s: seq<DatedValue>) {
    |s| > 0 && Mean(s) < UnitThreshold
  }

  /** The heuristic's trigger without division: total below 100 per entry. */
  lemma LooksLikeMWhMeans(s: seq<DatedValue>)
    ensures LooksLikeMWh(s) <==> |s| > 0 && Total(s) < UnitThreshold * (|s| as real)
  {
    if |s| > 0 {
      var n := |s| as real;
      assert Total(s) / n * n == Total(s);
    }
  }

  /** Every value multiplied by `k`. */
  function Scale(s: seq<DatedValue>, k: real): (r: seq<DatedValue>)
    ensures |r| == |s|
    ensures forall i :: 0 <= i < |s| ==> r[i] == DatedValue(s[i].date, k * s[i].value)
    ensures Total(r) == k * Total(s)
  {
    if s == [] then [] else [DatedValue(s[0].date, k * s[0].value)] + Scale(s[1..], k)
  }

  /** Unit normalisation: ×1000 when the series looks like MWh. */
  function Normalise(s: seq<DatedValue>): (r: seq<DatedValue>)
    ensures |r| == |s|
    ensures forall i :: 0 <= i < |s| ==> r[i].date == s[i].date
    ensures LooksLikeMWh(s) ==> forall i :: 0 <= i < |s| ==> r[i].value == UnitFactor * s[i].value
    ensures !LooksLikeMWh(s) ==> r == s
  {
    if LooksLikeMWh(s) then Scale(s, UnitFactor) else s
  }

  /** The worked examples of the unit heuristic: a mean of 6 is rescaled,
      means of 5500 and of exactly 100 are left alone. */
  lemma NormaliseExamples()
    ensures var d1, d2, d3 := Date(2026, 1, 1), Date(2026, 1, 2), Date(2026, 1, 3);
      && Normalise([DatedValue(d1, 5.0), DatedValue(d2, 6.0), DatedValue(d3, 7.0)])
         == [DatedValue(d1, 5000.0), DatedValue(d2, 6000.0), DatedValue(d3, 7000.0)]
      && Normalise([DatedValue(d1, 5000.0), DatedValue(d2, 6000.0)])
         == [DatedValue(d1, 5000.0), DatedValue(d2, 6000.0)]
      && Normalise([DatedValue(d1, 50.0), DatedValue(d2, 150.0)])
         == [DatedValue(d1, 50.0), DatedValue(d2, 150.0)]
  {
    var d1, d2, d3 := Date(2026, 1, 1), Date(2026, 1, 2), Date(2026, 1, 3);
    var a := [DatedValue(d1, 5.0), DatedValue(d2, 6.0), DatedValue(d3, 7.0)];
    assert a[1..][1..] == [DatedValue(d3, 7.0)];
    assert Total(a[1..][1..]) == 7.0;
    assert Total(a) == 18.0;
    var b := [DatedValue(d1, 5000.0), DatedValue(d2, 6000.0)];
    assert b[1..] == [DatedValue(d2, 6000.0)];
    assert Total(b[1..]) == 6000.0;
    assert Total(b) == 11000.0;
    var c := [DatedValue(d1, 50.0), DatedValue(d2, 150.0)];
    assert c[1..] == [DatedValue(d2, 150.0)];
    assert Total(c[1..]) == 150.0;
    assert Total(c) == 200.0;
  }

  /** Once rescaled, a series whose mean was at least 0.1 no longer looks
      like MWh, so normalising again changes nothing. */
  lemma NormaliseSettles(s: seq<DatedValue>)
    requires |s| > 0 && Mean(s) >= 0.1
    ensures !LooksLikeMWh(Normalise(s))
    ensures Normalise(Normalise(s)) == Normalise(s)
  {
    var n := |s| as real;
    if LooksLikeMWh(s) {
      assert Mean(Normalise(s)) == UnitFactor * Total(s) / n;
      assert Total(s) / n >= 0.1;
      assert UnitFactor * Total(s) / n == UnitFactor * (Total(s) / n);
    }
  }

  /** Below a mean of 0.1 the heuristic fires again on its own output: it is
      not idempotent. */
  lemma NormaliseTinyMeanRescalesTwice()
    ensures var s := [DatedValue(Date(2026, 1, 1), 0.05)];
      Normalise(Normalise(s)) == [DatedValue(Date(2026, 1, 1), 50000.0)]
  {
    var s := [DatedValue(Date(2026, 1, 1), 0.05)];
    assert Total(s) == 0.05;
    assert Normalise(s) == [DatedValue(Date(2026, 1, 1), 50.0)];
    assert Total(Normalise(s)) == 50.0;
  }

  /** The whole ingestor: the daily yields of the target month, or why the
      sheet cannot be used. */
  function Extract(sheet: Sheet, target: string): (r: Result<seq<DatedValue>, IngestError>)
    ensures r == Failure(ColumnNotFound)
      <==> forall j :: 0 <= j < |sheet.headers| ==> !IsProductionHeader(sheet.headers[j])
    ensures r == Failure(DateColumnMissing)
      <==> (exists j :: 0 <= j < |sheet.headers| && IsProductionHeader(sheet.headers[j]))
           && DateHeader !in sheet.headers
    ensures r.Success? ==> StrictlySorted(r.value)
    ensures r.Success? ==> forall x :: x in r.value ==> InMonth(x.date, target)
  {
    match DetectColumn(sheet.headers)
    case None => Failure(ColumnNotFound)
    case Some(yieldCol) =>
      match FindHeader(sheet.headers, DateHeader)
      case None => Failure(DateColumnMissing)
      case Some(dateCol) =>
        var grouped := GroupSum(ParseRows(sheet.rows, dateCol, yieldCol));
        GroupSumSpec(ParseRows(sheet.rows, dateCol, yieldCol));
        Success(Normalise(MonthFilter(grouped, target)))
  }

  /** The dated rows the ingestor reads, once both columns are found. */
  function ParsedRows(sheet: Sheet): seq<DatedValue>
    requires DetectColumn(sheet.headers).Some? && FindHeader(sheet.headers, DateHeader).Some?
  {
    ParseRows(sheet.rows, FindHeader(sheet.headers, DateHeader).value, DetectColumn(sheet.headers).value)
  }

  /** A series with one entry per day whose values are the day sums of `p`
      totals the values of `p` on those days. */
  lemma {:induction false} TotalOfDaySums(s: seq<DatedValue>, p: seq<DatedValue>)
    requires DistinctDates(s)
    requires forall i :: 0 <= i < |s| ==> s[i].value == SumOn(p, s[i].date)
    ensures Total(s) == SumWhere(p, DatesOf(s))
  {
    if s == [] {
      assert DatesOf(s) == {};
      SumWhereEmpty(p);
    } else {
      DistinctTail(s);
      DatesOfCons(s);
      forall i | 0 <= i < |s[1..]| ensures s[1..][i].value == SumOn(p, s[1..][i].date) {
        assert s[1..][i] == s[i + 1];
      }
      TotalOfDaySums(s[1..], p);
      SumWhereInsert(p, s[0].date, DatesOf(s[1..]));
    }
  }

  /** A series and its normalisation mention the same days. */
  lemma NormaliseKeepsDates(s: seq<DatedValue>)
    ensures DatesOf(Normalise(s)) == DatesOf(s)
  {
    var r := Normalise(s);
    forall d | d in DatesOf(r) ensures d in DatesOf(s) {
      var i :| 0 <= i < |r| && r[i].date == d;
      assert s[i].date == d;
    }
    forall d | d in DatesOf(s) ensures d in DatesOf(r) {
      var i :| 0 <= i < |s| && s[i].date == d;
      assert r[i].date == d;
    }
  }

  /** Before rescaling: the grouped rows of the target month are one entry
      per parsed day of that month, holding the day's sum. */
  lemma FilteredDaySums(p: seq<DatedValue>, target: string)
    ensures DistinctDates(MonthFilter(GroupSum(p), target))
    ensures var f := MonthFilter(GroupSum(p), target);
      forall i :: 0 <= i < |f| ==> f[i].value == SumOn(p, f[i].date)
    ensures DatesOf(MonthFilter(GroupSum(p), target))
      == set d | d in DatesOf(p) && InMonth(d, target)
  {
    var g := GroupSum(p);
    GroupSumSpec(p);
    GroupSumValues(p);
    var f := MonthFilter(g, target);
    SortedIsDistinct(f);
    forall i | 0 <= i < |f| ensures f[i].value == SumOn(p, f[i].date) {
      assert f[i] in g;
    }
    forall d | d in DatesOf(f) ensures d in DatesOf(p) && InMonth(d, target) {
      var i :| 0 <= i < |f| && f[i].date == d;
      assert f[i] in g;
    }
    forall d | d in DatesOf(p) && InMonth(d, target) ensures d in DatesOf(f) {
      assert d in DatesOf(g);
      var j :| 0 <= j < |g| && g[j].date == d;
      assert g[j] in f;
    }
  }

  /** The ingestor's steps after column selection, on parsed rows `p`. */
  function Sanitise(p: seq<DatedValue>, target: string): seq<DatedValue> {
    Normalise(MonthFilter(GroupSum(p), target))
  }

  /** Once both columns are found, ingestion succeeds with the sanitised rows. */
  lemma ExtractSucceeds(sheet: Sheet, target: string)
    requires DetectColumn(sheet.headers).Some? && FindHeader(sheet.headers, DateHeader).Some?
    ensures Extract(sheet, target) == Success(Sanitise(ParsedRows(sheet), target))
  {
  }

  /** Sanitised rows are exactly the parsed days of the target month, each
      with the sum of its rows times one common factor; the factor is 1000
      exactly when those sums average below 100. */
  lemma SanitiseSpec(p: seq<DatedValue>, target: string) returns (k: real)
    ensures var r := Sanitise(p, target);
      DatesOf(r) == set d | d in DatesOf(p) && InMonth(d, target)
    ensures var r := Sanitise(p, target);
      forall i :: 0 <= i < |r| ==> r[i].value == k * SumOn(p, r[i].date)
    ensures var r := Sanitise(p, target);
      k == (if |r| > 0 && SumWhere(p, DatesOf(r)) < UnitThreshold * (|r| as real)
            then UnitFactor else 1.0)
    ensures var r := Sanitise(p, target);
      Total(r) == k * SumWhere(p, DatesOf(r))
  {
    var f := MonthFilter(GroupSum(p), target);
    FilteredDaySums(p, target);
    NormaliseKeepsDates(f);
    TotalOfDaySums(f, p);
    LooksLikeMWhMeans(f);
    k := if LooksLikeMWh(f) then UnitFactor else 1.0;
  }

  /** The unit factor read back from the result: with `t` the unscaled day
      total, the factor is 1000 exactly when the rescaled total stays below
      100 per day times the factor. */
  lemma FactorFromResult(r: seq<DatedValue>, t: real, k: real)
    requires k == (if |r| > 0 && t < UnitThreshold * (|r| as real) then UnitFactor else 1.0)
    requires Total(r) == k * t
    ensures k == UnitFactor || k == 1.0
    ensures k == UnitFactor <==> |r| > 0 && Total(r) < k * UnitThreshold * (|r| as real)
  {
    var n := |r| as real;
    if k == UnitFactor {
      assert UnitFactor * t < UnitFactor * UnitThreshold * n;
    }
  }

  /** Parsing keeps every day's total. */
  lemma ParseRowsSums(rows: seq<seq<Cell>>, dateCol: nat, yieldCol: nat)
    ensures forall d :: SumOn(ParseRows(rows, dateCol, yieldCol), d) == RowsSumOn(rows, dateCol, yieldCol, d)
  {
    forall d ensures SumOn(ParseRows(rows, dateCol, yieldCol), d) == RowsSumOn(rows, dateCol, yieldCol, d) {
      ParseRowsSumOn(rows, dateCol, yieldCol, d);
    }
  }

  /** Per-day values stated over parsed records `p`, restated over the
      sheet's rows. */
  lemma DayValuesFromRows(p: seq<DatedValue>, rows: seq<seq<Cell>>, dateCol: nat, yieldCol: nat, r: seq<DatedValue>, k: real)
    requires forall d :: SumOn(p, d) == RowsSumOn(rows, dateCol, yieldCol, d)
    requires forall i :: 0 <= i < |r| ==> r[i].value == k * SumOn(p, r[i].date)
    ensures forall i :: 0 <= i < |r| ==> r[i].value == k * RowsSumOn(rows, dateCol, yieldCol, r[i].date)
  {
  }

  /** The whole ingestor, from the sheet's rows to the result: the days are
      exactly the parsed days of the target month, each holding the yield
      of its rows times one common factor, and the factor is 1000 exactly
      when those unscaled day totals average below 100. */
  lemma ExtractSpec(sheet: Sheet, target: string, dateCol: nat, yieldCol: nat) returns (k: real)
    requires DetectColumn(sheet.headers) == Some(yieldCol)
    requires FindHeader(sheet.headers, DateHeader) == Some(dateCol)
    ensures Extract(sheet, target).Success?
    ensures var r := Extract(sheet, target).value;
      DatesOf(r) == set d | d in RowDates(sheet.rows, dateCol) && InMonth(d, target)
    ensures var r := Extract(sheet, target).value;
      forall i :: 0 <= i < |r| ==> r[i].value == k * RowsSumOn(sheet.rows, dateCol, yieldCol, r[i].date)
    ensures k == UnitFactor || k == 1.0
    ensures var r := Extract(sheet, target).value;
      Total(r) == k * RowsSumWhere(sheet.rows, dateCol, yieldCol, DatesOf(r))
    ensures var r := Extract(sheet, target).value;
      k == UnitFactor <==> |r| > 0 && RowsSumWhere(sheet.rows, dateCol, yieldCol, DatesOf(r)) < UnitThreshold * (|r| as real)
  {
    var p := ParseRows(sheet.rows, dateCol, yieldCol);
    assert ParsedRows(sheet) == p;
    ExtractSucceeds(sheet, target);
    var r := Sanitise(p, target);
    assert Extract(sheet, target).value == r;
    k := SanitiseSpec(p, target);
    ParseRowsDates(sheet.rows, dateCol, yieldCol);
    ParseRowsSums(sheet.rows, dateCol, yieldCol);
    DayValuesFromRows(p, sheet.rows, dateCol, yieldCol, r, k);
    ParseRowsSumWhere(sheet.rows, dateCol, yieldCol, DatesOf(r));
    FactorFromResult(r, SumWhere(p, DatesOf(r)), k);
  }
}

=== FILE: Physics.dfy ===
/** The expected-yield model, the date join, the performance ratio, the
    quality gate and the classification (solar_analytics.py lines 76-94). */
module Physics {
  import opened Dates
  import opened Series

  /** Megajoules in one kilowatt-hour: the provider reports MJ/m², the model
      works in kWh/m². */
  const MJPerKWh: real := 3.6

  /** The irradiance series converted from MJ/m² to kWh/m². */
  function ToKWh(s: seq<DatedValue>): (r: seq<DatedValue>)
    ensures |r| == |s|
    ensures forall i :: 0 <= i < |s| ==> r[i].date == s[i].date && r[i].value * MJPerKWh == s[i].value
  {
    if s == [] then [] else [DatedValue(s[0].date, s[0].value / MJPerKWh)] + ToKWh(s[1..])
  }

  /** Converting every day converts the total. */
  lemma {:induction false} ToKWhTotal(s: seq<DatedValue>)
    ensures Total(ToKWh(s)) * MJPerKWh == Total(s)
  {
    if s != [] {
      ToKWhTotal(s[1..]);
    }
  }

  /** Conversion keeps the days, so it keeps a series free of repeats. */
  lemma ToKWhKeepsDates(s: seq<DatedValue>)
    ensures DatesOf(ToKWh(s)) == DatesOf(s)
    ensures DistinctDates(s) ==> DistinctDates(ToKWh(s))
  {
    var r := ToKWh(s);
    forall d | d in DatesOf(r) ensures d in DatesOf(s) {
      var i :| 0 <= i < |r| && r[i].date == d;
      assert s[i].date == d;
    }
    forall d | d in DatesOf(s) ensures d in DatesOf(r) {
      var i :| 0 <= i < |s| && s[i].date == d;
      assert r[i].date == d;
    }
  }

  /** One row of the merged frame: a day with its yield and its irradiance. */
  datatype Matched = Matched(date: Date, actual: real, irradiance: real)

  /** The merged rows one yield row produces: one per irradiance row of the
      same day, in the irradiance series' order. */
  function MatchesOf(y: DatedValue, irr: seq<DatedValue>): (r: seq<Matched>)
    ensures forall m :: m in r ==> m.date == y.date && m.actual == y.value
    ensures forall m :: m in r ==> exists j :: 0 <= j < |irr| && irr[j].date == y.date && m.irradiance == irr[j].value
  {
    if irr == [] then []
    else
      var rest := MatchesOf(y, irr[1..]);
      assert forall m :: m in rest ==> exists j :: 1 <= j < |irr| && irr[j].date == y.date && m.irradiance == irr[j].value by {
        forall m | m in rest
          ensures exists j :: 1 <= j < |irr| && irr[j].date == y.date && m.irradiance == irr[j].value
        {
          var j :| 0 <= j < |irr[1..]| && irr[1..][j].date == y.date && m.irradiance == irr[1..][j].value;
          assert irr[1..][j] == irr[j + 1];
        }
      }
      (if irr[0].date == y.date then [Matched(y.date, y.value, irr[0].value)] else []) + rest
  }

  /** `pd.merge(df, df_w, on='Tarih')`: the inner join of the yield and the
      irradiance series on the day, in the yield series' order. */
  function Join(ys: seq<DatedValue>, irr: seq<DatedValue>): (r: seq<Matched>)
    ensures forall m :: m in r ==> exists i :: 0 <= i < |ys| && ys[i].date == m.date && m.actual == ys[i].value
    ensures forall m :: m in r ==> exists j :: 0 <= j < |irr| && irr[j].date == m.date && m.irradiance == irr[j].value
  {
    if ys == [] then []
    else
      var rest := Join(ys[1..], irr);
      assert forall m :: m in rest ==> exists i :: 1 <= i < |ys| && ys[i].date == m.date && m.actual == ys[i].value by {
        forall m | m in rest
          ensures exists i :: 1 <= i < |ys| && ys[i].date == m.date && m.actual == ys[i].value
        {
          var i :| 0 <= i < |ys[1..]| && ys[1..][i].date == m.date && m.actual == ys[1..][i].value;
          assert ys[1..][i] == ys[i + 1];
        }
      }
      MatchesOf(ys[0], irr) + rest
  }

  /** Sum of the merged yields: the analyzer's `real`. */
  function ActualSum(ms: seq<Matched>): real {
    if ms == [] then 0.0 else ms[0].actual + ActualSum(ms[1..])
  }

  /** Sum of the merged irradiances (kWh/m²). */
  function IrradianceSum(ms: seq<Matched>): real {
    if ms == [] then 0.0 else ms[0].irradiance + IrradianceSum(ms[1..])
  }

  /** Expected yield of one day: irradiance × tilt factor × capacity × system loss. */
  function ExpectedDay(irradiance: real, tilt: real, kwp: real, loss: real): real {
    irradiance * tilt * kwp * loss
  }

  /** Sum of the per-day expected yields: the analyzer's `exp`. */
  function ExpectedSum(ms: seq<Matched>, tilt: real, kwp: real, loss: real): real {
    if ms == [] then 0.0
    else ExpectedDay(ms[0].irradiance, tilt, kwp, loss) + ExpectedSum(ms[1..], tilt, kwp, loss)
  }

  /** The expected yield is linear: summing the model per day equals
      applying it once to the total matched irradiance. */
  lemma {:induction false} ExpectedIsLinear(ms: seq<Matched>, tilt: real, kwp: real, loss: real)
    ensures ExpectedSum(ms, tilt, kwp, loss) == ExpectedDay(IrradianceSum(ms), tilt, kwp, loss)
  {
    if ms != [] {
      ExpectedIsLinear(ms[1..], tilt, kwp, loss);
      var t := IrradianceSum(ms[1..]);
      var x := ms[0].irradiance;
      assert (x + t) * tilt * kwp * loss == x * tilt * kwp * loss + t * tilt * kwp * loss;
    }
  }

  lemma {:induction false} SumsOfConcat(a: seq<Matched>, b: seq<Matched>)
    ensures ActualSum(a + b) == ActualSum(a) + ActualSum(b)
    ensures IrradianceSum(a + b) == IrradianceSum(a) + IrradianceSum(b)
  {
    if a == [] {
      assert a + b == b;
    } else {
      assert (a + b)[0] == a[0];
      assert (a + b)[1..] == a[1..] + b;
      SumsOfConcat(a[1..], b);
    }
  }

  /** The first merged row a yield row produces, if the first irradiance
      row shares its day. */
  function HeadMatch(y: DatedValue, irr: seq<DatedValue>): seq<Matched>
    requires irr != []
  {
    if irr[0].date == y.date then [Matched(y.date, y.value, irr[0].value)] else []
  }

  lemma MatchesOfUnfold(y: DatedValue, irr: seq<DatedValue>)
    requires irr != []
    ensures MatchesOf(y, irr) == HeadMatch(y, irr) + MatchesOf(y, irr[1..])
  {
  }

  /** With one irradiance row per day, a yield row contributes its value
      once when its day is covered and nothing otherwise. */
  lemma {:induction false} MatchesOfActual(y: DatedValue, irr: seq<DatedValue>)
    requires DistinctDates(irr)
    ensures ActualSum(MatchesOf(y, irr)) == if y.date in DatesOf(irr) then y.value else 0.0
  {
    if irr != [] {
      DistinctTail(irr);
      DatesOfCons(irr);
      MatchesOfActual(y, irr[1..]);
      MatchesOfUnfold(y, irr);
      SumsOfConcat(HeadMatch(y, irr), MatchesOf(y, irr[1..]));
    }
  }

  /** One yield row brings in the irradiance recorded for its day. */
  lemma {:induction false} MatchesOfIrradiance(y: DatedValue, irr: seq<DatedValue>)
    ensures IrradianceSum(MatchesOf(y, irr)) == SumOn(irr, y.date)
  {
    if irr != [] {
      MatchesOfIrradiance(y, irr[1..]);
      MatchesOfUnfold(y, irr);
      SumsOfConcat(HeadMatch(y, irr), MatchesOf(y, irr[1..]));
    }
  }

  /** A yield row finds no partner exactly when its day is missing from the
      irradiance series. */
  lemma {:induction false} MatchesOfEmpty(y: DatedValue, irr: seq<DatedValue>)
    ensures MatchesOf(y, irr) == [] <==> y.date !in DatesOf(irr)
  {
    if irr != [] {
      DatesOfCons(irr);
      MatchesOfEmpty(y, irr[1..]);
    }
  }

  /** The join is empty exactly when the two series share no day. */
  lemma {:induction false} JoinEmptyIffDisjoint(ys: seq<DatedValue>, irr: seq<DatedValue>)
    ensures Join(ys, irr) == [] <==> DatesOf(ys) !! DatesOf(irr)
  {
    if ys != [] {
      DatesOfCons(ys);
      MatchesOfEmpty(ys[0], irr);
      JoinEmptyIffDisjoint(ys[1..], irr);
    }
  }

  /** With one irradiance value per day, the matched yield is the yield of
      exactly the days the irradiance series covers. */
  lemma {:induction false} JoinActual(ys: seq<DatedValue>, irr: seq<DatedValue>)
    requires DistinctDates(irr)
    ensures ActualSum(Join(ys, irr)) == SumWhere(ys, DatesOf(irr))
  {
    if ys != [] {
      JoinActual(ys[1..], irr);
      MatchesOfActual(ys[0], irr);
      assert Join(ys, irr) == MatchesOf(ys[0], irr) + Join(ys[1..], irr);
      SumsOfConcat(MatchesOf(ys[0], irr), Join(ys[1..], irr));
      assert ActualSum(MatchesOf(ys[0], irr)) == if ys[0].date in DatesOf(irr) then ys[0].value else 0.0;
    }
  }

  /** With one yield value per day, the matched irradiance is the irradiance
      of exactly the days the yield series covers. */
  lemma {:induction false} JoinIrradiance(ys: seq<DatedValue>, irr: seq<DatedValue>)
    requires DistinctDates(ys)
    ensures IrradianceSum(Join(ys, irr)) == SumWhere(irr, DatesOf(ys))
  {
    if ys == [] {
      assert DatesOf(ys) == {};
      SumWhereEmpty(irr);
    } else {
      DistinctTail(ys);
      DatesOfCons(ys);
      JoinIrradiance(ys[1..], irr);
      MatchesOfIrradiance(ys[0], irr);
      SumsOfConcat(MatchesOf(ys[0], irr), Join(ys[1..], irr));
      SumWhereInsert(irr, ys[0].date, DatesOf(ys[1..]));
    }
  }

  /** Summing converted values over some days converts the sum. */
  lemma {:induction false} SumWhereToKWh(irr: seq<DatedValue>, days: set<Date>)
    ensures SumWhere(ToKWh(irr), days) == SumWhere(irr, days) / MJPerKWh
  {
    if irr != [] {
      SumWhereToKWh(irr[1..], days);
      assert ToKWh(irr)[1..] == ToKWh(irr[1..]);
    }
  }

  /** With one yield value per day, the expected yield of the join is the
      model applied to the total irradiance, converted from MJ/m², of
      exactly the days the yield series covers. */
  lemma ExpectedOverJoin(ys: seq<DatedValue>, irr: seq<DatedValue>, tilt: real, kwp: real, loss: real)
    requires DistinctDates(ys)
    ensures ExpectedSum(Join(ys, ToKWh(irr)), tilt, kwp, loss)
      == ExpectedDay(SumWhere(irr, DatesOf(ys)) / MJPerKWh, tilt, kwp, loss)
  {
    var ms := Join(ys, ToKWh(irr));
    ExpectedIsLinear(ms, tilt, kwp, loss);
    JoinIrradiance(ys, ToKWh(irr));
    SumWhereToKWh(irr, DatesOf(ys));
  }

  /** Performance ratio in percent: actual over expected, or 0 when nothing
      was expected. */
  function PerformanceRatio(actual: real, expected: real): (pr: real)
    ensures expected > 0.0 ==> pr * expected == 100.0 * actual
    ensures expected <= 0.0 ==> pr == 0.0
  {
    if expected > 0.0 then actual / expected * 100.0 else 0.0
  }

  /** With the expected yield fixed, the ratio strictly grows with the actual yield. */
  lemma PerformanceRatioIncreasesWithActual(a1: real, a2: real, e: real)
    requires e > 0.0 && a1 < a2
    ensures PerformanceRatio(a1, e) < PerformanceRatio(a2, e)
  {
    var p1, p2 := PerformanceRatio(a1, e), PerformanceRatio(a2, e);
    assert (p2 - p1) * e == 100.0 * (a2 - a1);
  }

  /** With a positive actual yield fixed, the ratio strictly falls as the
      expected yield grows. */
  lemma PerformanceRatioDecreasesWithExpected(a: real, e1: real, e2: real)
    requires a > 0.0 && 0.0 < e1 < e2
    ensures PerformanceRatio(a, e1) > PerformanceRatio(a, e2)
  {
    var p1, p2 := PerformanceRatio(a, e1), PerformanceRatio(a, e2);
    assert p1 * e1 == p2 * e2;
    assert p2 > 0.0 by {
      assert p2 * e2 == 100.0 * a;
    }
    EqualProductsOrder(p1, p2, e1, e2);
  }

  /** If x·e1 = y·e2 with 0 < e1 < e2 and y positive, then x exceeds y. */
  lemma EqualProductsOrder(x: real, y: real, e1: real, e2: real)
    requires 0.0 < e1 < e2 && y > 0.0 && x * e1 == y * e2
    ensures x > y
  {
    assert y * e2 > y * e1;
    assert x * e1 > y * e1;
  }

  /** Ratios above this are discarded as bad data. */
  const QualityLimit: real := 100.0

  /** The quality gate: keep a plant whose ratio does not exceed 100. */
  predicate PassesGate(pr: real) {
    pr <= QualityLimit
  }

  /** The gate rejects exactly the plants that produced more than expected;
      a plant with nothing expected always passes. */
  lemma GateMeansNoOverproduction(actual: real, expected: real)
    ensures expected > 0.0 ==> (PassesGate(PerformanceRatio(actual, expected)) <==> actual <= expected)
    ensures expected <= 0.0 ==> PassesGate(PerformanceRatio(actual, expected))
  {
    var pr := PerformanceRatio(actual, expected);
    if expected > 0.0 {
      assert pr * expected == 100.0 * actual;
      if pr <= QualityLimit {
        assert pr * expected <= 100.0 * expected;
      } else {
        assert pr * expected > 100.0 * expected;
      }
    }
  }

  /** Gate boundary: exactly 100 passes, anything above is discarded. */
  lemma GateBoundary()
    ensures PassesGate(100.0)
    ensures !PassesGate(100.0001)
  {
  }

  /** The three performance classes. */
  datatype Status = Excellent | Standard | ReviewNeeded {
    /** The label written to the report. */
    function Label(): string {
      match this
      case Excellent => "Excellent"
      case Standard => "Standard"
      case ReviewNeeded => "Review Needed"
    }

    /** Position in the order of the classes, worst first. */
    function Rank(): nat {
      match this
      case ReviewNeeded => 0
      case Standard => 1
      case Excellent => 2
    }
  }

  const ExcellentFrom: real := 85.0
  const StandardFrom: real := 70.0

  /** Classification: Excellent from 85, Standard from 70, else Review Needed. */
  function Classify(pr: real): (st: Status)
    ensures st == Excellent <==> pr >= ExcellentFrom
    ensures st == Standard <==> StandardFrom <= pr < ExcellentFrom
    ensures st == ReviewNeeded <==> pr < StandardFrom
  {
    if pr >= ExcellentFrom then Excellent
    else if pr >= StandardFrom then Standard
    else ReviewNeeded
  }

  /** A higher ratio never gets a worse class. */
  lemma ClassifyMonotone(p1: real, p2: real)
    requires p1 <= p2
    ensures Classify(p1).Rank() <= Classify(p2).Rank()
  {
  }

  /** The classification boundaries. */
  lemma ClassifyBoundaries()
    ensures Classify(85.0) == Excellent
    ensures Classify(84.999) == Standard
    ensures Classify(70.0) == Standard
    ensures Classify(69.999) == ReviewNeeded
    ensures Classify(0.0).Label() == "Review Needed"
  {
  }
}

=== FILE: Series.dfy ===
/** Daily series: one value per calendar day, and the sums the analyzer
    takes over them. */
module Series {
  import opened Dates

  /** A value recorded for one calendar day (a yield in kWh, or an
      irradiance). */
  datatype DatedValue = DatedValue(date: Date, value: real)

  /** The days a series mentions. */
  function DatesOf(s: seq<DatedValue>): set<Date> {
    set i | 0 <= i < |s| :: s[i].date
  }

  /** Sum of all values of the series. */
  function Total(s: seq<DatedValue>): real {
    if s == [] then 0.0 else s[0].value + Total(s[1..])
  }

  /** Sum of the values recorded for day `d`. */
  function SumOn(s: seq<DatedValue>, d: Date): real {
    if s == [] then 0.0
    else (if s[0].date == d then s[0].value else 0.0) + SumOn(s[1..], d)
  }

  /** Sum of the values recorded for any day of `days`. */
  function SumWhere(s: seq<DatedValue>, days: set<Date>): real {
    if s == [] then 0.0
    else (if s[0].date in days then s[0].value else 0.0) + SumWhere(s[1..], days)
  }

  /** Days strictly increase along the series. */
  predicate StrictlySorted(s: seq<DatedValue>) {
    forall i, j :: 0 <= i < j < |s| ==> Before(s[i].date, s[j].date)
  }

  /** No day occurs twice. */
  predicate DistinctDates(s: seq<DatedValue>) {
    forall i, j :: 0 <= i < j < |s| ==> s[i].date != s[j].date
  }

  lemma DatesOfCons(s: seq<DatedValue>)
    requires |s| > 0
    ensures DatesOf(s) == {s[0].date} + DatesOf(s[1..])
  {
    forall d | d in DatesOf(s) ensures d in {s[0].date} + DatesOf(s[1..]) {
      var i :| 0 <= i < |s| && s[i].date == d;
      if i > 0 { assert s[1..][i - 1].date == d; }
    }
    forall d | d in DatesOf(s[1..]) ensures d in DatesOf(s) {
      var i :| 0 <= i < |s[1..]| && s[1..][i].date == d;
      assert s[i + 1].date == d;
    }
  }

  /** In a sorted series the first day comes before every later reading. */
  lemma SortedHeadFirst(s: seq<DatedValue>)
    requires |s| > 0 && StrictlySorted(s)
    ensures forall y :: y in s[1..] ==> Before(s[0].date, y.date)
    ensures forall d :: d in DatesOf(s[1..]) ==> Before(s[0].date, d)
  {
    forall y | y in s[1..] ensures Before(s[0].date, y.date) {
      var k :| 0 <= k < |s[1..]| && s[1..][k] == y;
      assert s[k + 1] == y;
    }
    forall d | d in DatesOf(s[1..]) ensures Before(s[0].date, d) {
      var k :| 0 <= k < |s[1..]| && s[1..][k].date == d;
      assert s[1..][k] in s[1..];
    }
  }

  /** A reading put in front of a sorted series whose readings all come
      later leaves it sorted. */
  lemma PrependSorted(x: DatedValue, t: seq<DatedValue>)
    requires StrictlySorted(t)
    requires forall y :: y in t ==> Before(x.date, y.date)
    ensures StrictlySorted([x] + t)
  {
    var s := [x] + t;
    forall i, j | 0 <= i < j < |s| ensures Before(s[i].date, s[j].date) {
      assert s[j] == t[j - 1];
      if i > 0 {
        assert s[i] == t[i - 1];
      }
    }
  }

  /** A strictly sorted series has no repeated day. */
  lemma SortedIsDistinct(s: seq<DatedValue>)
    requires StrictlySorted(s)
    ensures DistinctDates(s)
  {
  }

  /** In a series without repeats, the first day does not recur in the rest. */
  lemma DistinctTail(s: seq<DatedValue>)
    requires |s| > 0 && DistinctDates(s)
    ensures DistinctDates(s[1..])
    ensures s[0].date !in DatesOf(s[1..])
  {
    forall i | 0 <= i < |s[1..]| ensures s[1..][i].date != s[0].date {
      assert s[1..][i] == s[i + 1];
    }
  }

  /** A day the series does not mention sums to zero. */
  lemma {:induction false} SumOnAbsent(s: seq<DatedValue>, d: Date)
    requires d !in DatesOf(s)
    ensures SumOn(s, d) == 0.0
  {
    if s != [] {
      DatesOfCons(s);
      SumOnAbsent(s[1..], d);
    }
  }

  /** Without repeats, the sum for a day is the one value recorded for it. */
  lemma {:induction false} SumOnDistinct(s: seq<DatedValue>, i: nat)
    requires DistinctDates(s) && i < |s|
    ensures SumOn(s, s[i].date) == s[i].value
  {
    DistinctTail(s);
    if i == 0 {
      SumOnAbsent(s[1..], s[0].date);
    } else {
      assert s[1..][i - 1] == s[i];
      SumOnDistinct(s[1..], i - 1);
    }
  }

  /** Summing over one more day adds that day's sum. */
  lemma {:induction false} SumWhereInsert(s: seq<DatedValue>, d: Date, days: set<Date>)
    requires d !in days
    ensures SumWhere(s, {d} + days) == SumOn(s, d) + SumWhere(s, days)
  {
    if s != [] {
      SumWhereInsert(s[1..], d, days);
    }
  }

  /** Summing over no day gives zero. */
  lemma {:induction false} SumWhereEmpty(s: seq<DatedValue>)
    ensures SumWhere(s, {}) == 0.0
  {
    if s != [] {
      SumWhereEmpty(s[1..]);
    }
  }
}

=== FILE: Wrappers.dfy ===
/** Failure-carrying datatypes used throughout the model. */
module Wrappers {

  /** A value that may be absent: a date cell the parser could not read, a
      column that is not there, a remote call that produced nothing. */
  datatype Option<+T> = None | Some(value: T)

  /** The outcome of a step that either produces a value or fails with an
      error; a failure stands for the exception that makes the analyzer skip
      a plant. */
  datatype Result<+R, +E> = Success(value: R) | Failure(error: E)
}
